=== FILE: README.md ===
# decision_tree in Dafny

A model of the core of `decision_tree`, a small ID3-style decision-tree learner. It has three parts:

- **ARFF loader.** `Arff::parse` reads `@attribute` declarations and `@data` lines into integer-coded records. Each attribute gets a domain: a list of nominal labels, or the largest bucket seen of a continuous value.
- **Tree builder.** `DecisionTree::train` grows a tree over an arena of nodes, using an explicit work stack. `predict` walks the arena, and `test_set` counts the hits.
- **Pruning and metrics.** `prune` does greedy reduced-error pruning. The metrics are `count_children`, `count_live_nodes`, `max_children`, `max_depth` and `count_pruned_nodes`. `evaluate` computes the accuracy on held-out records.

The files follow the source's structure:

| file | models |
|---|---|
| `outcomes.dfy` | `Option` and `Result` |
| `records.dfy` | records, `build_distribution`, the class-count test, the majority choice, grouping by one feature |
| `tree.dfy` | the node arena, `predict`, `test_set`, and what pruning does to an arena (`Clear`) |
| `train.dfy` | `train`: the feature choice, the work stack, the loop and what it leaves behind |
| `prune.dfy` | `prune`, both as written and corrected |
| `metrics.dfy` | the structural metrics, as written and corrected |
| `text.dfy` | the string operations the loader relies on: `trim`, `split`, `lines`, the case-insensitive prefix test |
| `arff.dfy` | `Arff::parse` |
| `evaluate.dfy` | `evaluate` |

Two parts of the source are abstracted:

- **Split score.** The `f32` entropy score is an abstract `Cost` function of a child's class distribution and the parent subset's size. The builder sums it over the scored values of each unused feature and picks the first minimum, as `min_by` does.
- **Accuracies.** Accuracies over one fixed record set are compared as counts of correct predictions. The source divides each by the same length, which keeps their order.

Main results:

- **Training.** A trained arena is exactly what `train` promises:
  - every branch has a path for exactly the values whose group is non-empty and decided;
  - leaves hold single-class records;
  - no feature repeats along a path;
  - `predict` never indexes out of range;
  - nothing is pruned by the corrected count (see Findings), and the depth is at most the number of features plus one.
- **Pruning.** The corrected `prune` terminates. It only empties paths and never lowers validation accuracy. It stops at a local optimum.
- **Loading.** The loader keeps every domain consistent with its column. Comment lines change nothing. Once `@data` is seen the header is fixed.

## Model

| member | source | states |
|---|---|---|
| `Records.Distribution` | src/decision.rs:38-47 | the result has one counter per class, and counter `c` is the number of records of class `c` |
| `Records.PureIffOneClass` | src/decision.rs:68-79 | exactly one counter is non-zero iff the subset is non-empty and all its records share one class (the leaf test of `train`) |
| `Records.LastMax` | src/decision.rs:128 | the majority index is in range, no counter exceeds it, and every later counter is strictly smaller (`max_by` keeps the last maximum) |
| `Records.FilterKeeps` | src/decision.rs:105-109 | the records kept for a value are exactly the records with that value, and none is duplicated |
| `Records.GroupingPartitions` | src/decision.rs:124-127 | the groups by value of the split feature partition the subset: their multiset union is the subset |
| `Tree.Decide` | src/decision.rs:163-179 | the predicted class is the verdict of an entry the walk visits: a leaf's class, or the majority of a branch without a path for the record's value |
| `Tree.Predict` | src/decision.rs:163-179 | the loop that follows paths from entry 0 returns the class of the recursive walk |
| `Tree.FeaturesBelowWalkable` | src/decision.rs:166-168 | a record with a column for every split feature can be walked from any entry without an index out of range |
| `Tree.TestSetCountsHits` | src/decision.rs:157-161 | the count `test_set` divides is the number of positions whose record is predicted correctly |
| `Tree.ClearedKeepsAllWalkable` | src/decision.rs:242-243 | emptying the paths of branches keeps the arena ordered and every walkable record walkable |
| `Train.FirstMin` | src/decision.rs:84-122 | the chosen feature is unused, no unused feature scores lower, every earlier unused feature scores strictly higher, and there is none only when every feature is used |
| `Train.ChooseSome` | src/decision.rs:83-122 | when fewer features are used than exist, `min_by(..).unwrap()` finds a feature |
| `Train.Register` | src/decision.rs:72-77 | `paths.insert` changes only the parent entry, and only when it is a branch |
| `Train.ChildrenCover` | src/decision.rs:124-142 | every value of the split feature that some record has gets a pushed item |
| `Train.Children` | src/decision.rs:134-141 | every pushed item is the non-empty group of its value under the new branch, with the feature added to its used set |
| `Train.SplitChoice` | src/decision.rs:84-128 | the split feature is an unused one whose summed score is least, the first such on ties; the branch's majority is a class of largest count, the last such on ties |
| `Train.SplitGroups` | src/decision.rs:124-143 | one item is pushed per value whose group is non-empty, and only for those, in increasing value order, each linked to the new branch and holding exactly that group |
| `Train.LeafStep` | src/decision.rs:79-82 | a single-class item becomes a leaf of that class, the loop invariant is kept, and the stack measure drops |
| `Train.UndecidedStep` | src/decision.rs:143-145 | a mixed item with every feature used is dropped, the loop invariant is kept, and the stack measure drops |
| `Train.BranchStep` | src/decision.rs:83-142 | appending the branch and pushing its groups keeps the loop invariant and lowers the stack measure |
| `Train.TrainStep` | src/decision.rs:59-145 | one iteration keeps the loop invariant (arena, stack and pending paths) and strictly lowers the stack measure |
| `Train.Train` | src/decision.rs:51-156 | `None` exactly when the root is undecided; otherwise an arena in which every branch has a path for exactly the non-empty, decided groups |
| `Train.FinishedIsTrained` | src/decision.rs:150-152 | when the stack is empty, the invariant gives both directions of the path property |
| `Train.TrainedNodes` | src/decision.rs:79-133 | a leaf holds single-class records and answers their class; a branch holds several classes, splits on a feature unused above it, and answers the last most frequent class |
| `Train.NoFeatureRepeats` | src/decision.rs:90-94 | no feature is split on twice along a path |
| `Train.TrainedWalkable` | src/decision.rs:84-94 | every branch splits on a non-class attribute, so `predict` never indexes out of range for a record with a column per attribute |
| `Train.LeafFitsTraining` | src/decision.rs:79-82 | a training record whose walk ends at a leaf is classified correctly |
| `Prune.TrialScore` | src/decision.rs:222-232 | a trial scores at most the number of validation records |
| `Prune.StepAsWritten` | src/decision.rs:217-252 | the loop stops iff the arena is non-empty and every trial scores below the current count; it commits exactly when the last best-scoring entry scores at least the current count and is a branch, and then commits that entry; it panics exactly when the arena is empty or that entry is a leaf |
| `Prune.BestLive` | src/decision.rs:239 | the last live candidate of maximal score, and none only when no candidate is live |
| `Prune.PruneStep` | src/decision.rs:217-252 | the corrected step never panics; it stops iff no live branch scores at least the current count, and otherwise commits the last best-scoring live branch: it scores at least every live trial and more than every later one |
| `Prune.ClearLowersLive` | src/decision.rs:242-243 | emptying a live branch leaves one live branch fewer |
| `Prune.Prune` | src/decision.rs:217-252 | only paths are removed, validation accuracy never drops, and at the end no single live branch can be emptied without losing accuracy |
| `Prune.AsWrittenAgrees` | src/decision.rs:222-249 | with a positive current count, the step as written and the corrected step decide the same |
| `Prune.AsWrittenPanicsOnLeaf` | src/decision.rs:241-246 | an arena where the step as written reaches `unreachable!()` while the corrected step prunes the root |
| `Prune.AsWrittenLoopsOnClearedBranch` | src/decision.rs:219-249 | an arena where the step as written commits an already empty branch forever while the corrected step stops |
| `Metrics.CountChildrenIdentity` | src/decision.rs:254-265 | `count_children` is the subtree size minus one plus the number of leaves |
| `Metrics.CountPrunedNodesAsWritten` | src/decision.rs:288-290 | where it does not underflow, the arena length minus `count_children` is the length plus one minus size and leaves |
| `Metrics.CountPrunedNodesUnderflows` | src/decision.rs:254-290 | a three-entry arena whose `count_children(0)` is 4, so `count_pruned_nodes` underflows |
| `Metrics.LiveNodes` | src/decision.rs:267-269 | the corrected count of live entries (see Findings): the number reachable from the root, between 1 and the arena length |
| `Metrics.CountPrunedNodes` | src/decision.rs:288-290 | the unreachable entries: together with the live ones they make up the arena, without underflow |
| `Metrics.ClearedPrunesMore` | src/decision.rs:242-243 | emptying paths never makes an entry live again, so the pruned count only grows |
| `Metrics.TrainedNothingPruned` | src/decision.rs:267-290 | in a trained arena every entry is live, so the corrected pruned count (see Findings) is 0 |
| `Metrics.MaxChildren` | src/decision.rs:271-282 | `max_children` of an entry is at least 1 and at most the number of entries from it to the end |
| `Metrics.MaxBelow` | src/decision.rs:274-276 | the largest `max_children` over a branch's paths: no child exceeds it, and a child reaches it unless it is 0 |
| `Metrics.WalkWithinDepth` | src/decision.rs:271-286 | no prediction visits more entries than `max_children` of its start |
| `Metrics.TrainedDepth` | src/decision.rs:271-282 | in a trained arena an entry's subtree is at most one level deeper than the features still unused there |
| `Metrics.TrainedMaxDepth` | src/decision.rs:284-286 | `max_depth` of a trained arena is at most the number of features plus one |
| `Text.TrimInfix` | src/arff.rs:77 | `trim` removes exactly a white-space prefix and suffix |
| `Text.TrimAround` | src/arff.rs:89 | trimming white space around a trimmed core gives back the core |
| `Text.SplitJoin` | src/arff.rs:51-52 | joining the pieces of `split(',')` with `,` gives back the line |
| `Text.JoinSplit` | src/arff.rs:51-52 | splitting a `,`-joined list of comma-free pieces gives back the pieces |
| `Text.LinesOfTerminated` | src/arff.rs:48 | `lines` reads back lines written with a `\n` after each |
| `Text.IndexOf` | src/arff.rs:56 | the first position of the token among the labels, and none iff it is not a label |
| `Arff.AttributeNameCaptures` | src/arff.rs:27-30 | the attribute name is found iff the case-insensitive `^@attribute\s+(\S+)` captures it |
| `Arff.BraceContent` | src/arff.rs:35-38 | the text between the first `{` and the last `}`, and none iff no `{` precedes a `}` |
| `Arff.LabelsOfJoin` | src/arff.rs:86-91 | a comma-separated list whose pieces are labels padded with white space on either side is read back as those labels, trimmed and in order |
| `Arff.EmptyPieceSkipped` | src/arff.rs:86-91 | an empty piece between two commas yields no label, since each match of `[^,]+` is non-empty |
| `Arff.Domain` | src/arff.rs:81-96 | nominal iff there is a brace list, and then its labels are the trimmed non-empty comma-separated pieces of the list followed by `"?"`; otherwise continuous with maximum 0 |
| `Arff.HeaderLine` | src/arff.rs:72-99 | an attribute line adds its name and domain; otherwise a line starting with `@data` in any case switches to data, and nothing else changes |
| `Arff.ResolveAllOk` | src/arff.rs:51-66 | a data line resolves iff it has no more tokens than columns and each domain accepts its token; each value is then the token's first label position or its bucket |
| `Arff.ResolveAllFails` | src/arff.rs:54-66 | a line that does not resolve fails at its first bad token, for that token's reason |
| `Arff.DataLineRecord` | src/arff.rs:67-71 | the record's columns are the resolved tokens, the last one its class; later columns keep their domains |
| `Arff.DataLineKeeps` | src/arff.rs:58-63 | a data line keeps every domain consistent with its column, and only raises continuous maxima |
| `Arff.Parse` | src/arff.rs:25-108 | the result of feeding every line in order, or the first failing line and why |
| `Arff.RunKeeps` | src/arff.rs:44-102 | whatever is loaded is consistent: each continuous maximum is the largest bucket of its column, and each nominal value indexes a label |
| `Arff.CommentsIgnored` | src/arff.rs:49 | dropping all lines starting with `%` gives the same result, or a failure for the same reason |
| `Arff.DataModeKeepsHeader` | src/arff.rs:50-71 | after `@data`, names and nominal domains never change, and every non-comment line appends one record after the earlier ones |
| `Evaluate.Evaluate` | src/evaluate.rs:4-16 | the hit count is the number of correctly predicted records; the accuracy is hits over records, in [0, 1], and none for no records |
| `Evaluate.LoadedIsTrainable` | src/decision.rs:63-67 | a consistent loaded file with a nominal class attribute, a record, and every record as wide as the attributes is a problem `train` accepts |

## Left out

- The `f32` entropy (`calculate_information`, src/decision.rs:28-36) is an abstract per-value `Cost`. Floating-point rounding, and the `NaN` that `partial_cmp(..).unwrap()` panics on, are not modelled.
- `print_tree`, `Arff::shuffle` and src/main.rs are not modelled. They are output, randomness, and the command-line driver.
- `train`'s training/validation split is not modelled: the model trains on the whole data and has no validation part. The source computes `training_count` as `(data.len() as f32 * 1.) as usize` (src/decision.rs:56), which is the whole data only while there are at most 2^24 records. Above that the `f32` rounding can put records into validation, or round up past the length so that `split_at` (src/decision.rs:57) panics; neither case is modelled. The accuracy pass at the end of each iteration (`_stagnant` is never used) and the `println!`/`dbg!` output are not modelled either.
- `HashMap` iteration order is not modelled. Children are pushed in increasing value order, and the metrics fold over path values in increasing order. Both sums and maxima are order-independent.
- src/record.rs is not part of this model. `Record` is modelled from its use as a class index plus feature value indices.
- `Train.Train`: requires a non-empty training set. With no records the source divides by zero in `f32`, and with two or more features `partial_cmp(..).unwrap()` panics on the `NaN`.
- `Train.Train`: returns `None` for an undecided root. There the source panics when the accuracy pass indexes entry 0 of the empty arena.
- `Train.Train`: the stack's capacity hint `2.0_f32.powf(class_tags.len() as f32) as usize` (src/decision.rs:55) is not modelled. With 57 or more attributes it exceeds `isize::MAX` and `Vec::with_capacity` panics, and with a few dozen the allocation itself can fail; the model trains for any number of attributes.
- `Train.Train`: requires every record to hold a value for each non-class attribute and a class below the label count. The loader accepts a data line with fewer values than attributes, and `train` then panics indexing `record.features[feature]` (src/decision.rs:108, 126); a larger class panics indexing the counter in `build_distribution` (src/decision.rs:44). Those panics are not modelled.
- `Train.Train`: requires the class attribute to be nominal with at least one label. Otherwise the source reaches `unreachable!()` or the majority's `max_by(..).unwrap()` panics; the loader always gives the class at least the `"?"` label.
- `Tree.Predict`: requires an ordered arena in which the record can be walked from entry 0: the arena is non-empty and every branch on the walk splits on a feature the record has. Otherwise the source panics indexing `self.nodes[0]` (src/decision.rs:166) or `record.features[branch.feature]` (src/decision.rs:168); those panics, and the endless loop a path pointing backwards would cause, are not modelled. A trained arena meets this for every full-width record (`Train.TrainedWalkable`).
- `Evaluate.Evaluate`: requires every record to be walkable from entry 0, as `Tree.Predict` does, so the same index panics are not modelled.
- `Prune.Prune`: requires every validation record to be walkable from entry 0, as `Tree.Predict` does; a short validation record makes `test_set` panic on the same index, which is not modelled.
- `Prune.Prune`: requires a non-empty validation set, for the same `NaN` reason.
- `Prune.Prune`: compares accuracies as correct counts rather than `f32` fractions.
- `Tree.TestSet` returns the hit count rather than the `f32` fraction.
- `Evaluate.Evaluate` returns the exact rational accuracy, not an `f64`.
- The metrics (`count_children`, `max_children` and the reachable set) are ghost functions. A fold over a map's values is written with a bound on the keys.
- Regular expressions are modelled as the predicates they decide.
  - Case-insensitive matching of `@attribute` and `@data` is modelled for ASCII letters. No other character folds to them.
- The number parser of continuous tokens (`parse::<f32>().floor() as usize`) is the `Bucket` parameter.
- `Arff.Parse`: the source's `parse` only ever returns `Ok`, because `ArffError` has no variants; every failure is a panic. The model's `Err` stands for those panics.
- `Text.Lines` splits as `str::lines` does since Rust 1.77: at `\n`, dropping one `\r` before it. Earlier versions also dropped a bare trailing `\r` on the last line.
- A source abort (`unwrap`, an out-of-bounds index, or `expect("empty line")`, which cannot happen because `split` yields at least one token) is returned as an `Abort` naming the line and the failing column.

Two behaviours worth noting; the model follows the code:

- The code appends a `"?"` label to every nominal attribute, the class attribute included.
- Data tokens are matched against labels untrimmed (only labels are trimmed).

## Findings

| source | as written | input that shows it | evidently intended | confidence | as-written member | corrected member |
|---|---|---|---|---|---|---|
| src/decision.rs:222-246 | leaves and already-emptied branches score 0 and still compete in `max_by`, and the winner is committed when it scores at least the current accuracy | a validation set the tree gets entirely wrong (accuracy 0): a trailing leaf wins the tie and reaches `unreachable!()`, or a trailing emptied branch is committed again and again forever | only branches that still have paths are candidates; stop when there are none | high (not executed) | `Prune.StepAsWritten`, with `Prune.AsWrittenPanicsOnLeaf` and `Prune.AsWrittenLoopsOnClearedBranch` | `Prune.PruneStep`, `Prune.Prune` |
| src/decision.rs:254-265, 288-290 | `count_children` adds 1 per path and 1 per leaf, so it counts every leaf twice; `count_pruned_nodes` subtracts it from the arena length | a root with two leaf children: 3 entries, `count_children(0)` is 4, and `3 - 4` underflows `usize` | count the entries reachable from the root, and the pruned ones as the rest | high (not executed) | `Metrics.CountPrunedNodesAsWritten`, with `Metrics.CountPrunedNodesUnderflows` | `Metrics.LiveNodes`, `Metrics.CountPrunedNodes` |

=== FILE: arff.dfy ===
/** The ARFF loader (src/arff.rs `Arff::parse`, lines 25-108): header lines declare the
    attributes, `@data` switches to data lines, and each data line becomes one record of
    value indices. A continuous token is turned into a bucket by a number parser that is
    a parameter here (`str::parse::<f32>` followed by `floor() as usize` in the source).
    The source aborts on a bad data line; the model returns the failure and the line. */
module Arff {
  import opened Outcomes
  import opened Records
  import opened Text

  /** The domain of one attribute: the labels of a nominal attribute (a `"?"` label is
      appended to every one) or the largest bucket seen so far of a continuous one. */
  datatype Class = Nominal(labels: seq<string>) | Continuous(max: nat)

  /** What the loader returns: the records, and per attribute its name and domain. */
  datatype Arff = Arff(records: seq<Record>, labels: seq<string>, classes: seq<Class>)

  /** The bucket of a continuous token, `None` when the token is not a number. */
  type Bucket = string -> Option<nat>

  /** Why a data line aborts the source, with the column of the offending token: no
      attribute has that column (`classes[index]` out of bounds), a nominal token is not
      one of the labels (`position(..).unwrap()`), or a continuous token is not a number
      (`parse::<f32>().unwrap()`). */
  datatype Failure = NoColumn(column: nat) | NoLabel(column: nat) | NotANumber(column: nat)

  /** A failure and the position of the line that caused it in the list of lines. */
  datatype Abort = Abort(line: nat, failure: Failure)

  /** The loader's state between lines: what is built so far and whether `@data` was seen. */
  datatype Loader = Loader(arff: Arff, data: bool)

  const Start := Loader(Arff([], [], []), false)

  const AttributeKeyword := "@attribute"
  const DataKeyword := "@data"

  /** A line whose first character is `%`; an empty line is not a comment. */
  predicate IsComment(line: string) {
    line != [] && line[0] == '%'
  }

  // ----- header lines -----

  /** Length of the white-space run that starts `s`. */
  function SpaceRun(s: string): (n: nat)
    ensures n <= |s| && AllSpace(s[..n]) && (n == |s| || !IsSpace(s[n]))
  {
    if s != [] && IsSpace(s[0]) then
      var n := SpaceRun(s[1..]) + 1;
      assert s[1..][..n - 1] == s[1..n];
      n
    else 0
  }

  predicate NoSpace(s: string) {
    forall i | 0 <= i < |s| :: !IsSpace(s[i])
  }

  /** Length of the run of non-white-space characters that starts `s`. */
  function WordRun(s: string): (n: nat)
    ensures n <= |s| && NoSpace(s[..n]) && (n == |s| || IsSpace(s[n]))
  {
    if s != [] && !IsSpace(s[0]) then
      var n := WordRun(s[1..]) + 1;
      assert s[1..][..n - 1] == s[1..n];
      n
    else 0
  }

  /** The group `(\S+)` of `^@attribute\s+(\S+).*` matched case-insensitively: the whole
      word after the keyword and at least one white-space character. */
  function AttributeName(line: string): (name: Option<string>) {
    if !StartsWithIgnoreCase(line, AttributeKeyword) then None
    else
      var rest := line[|AttributeKeyword|..];
      var gap := SpaceRun(rest);
      var word := WordRun(rest[gap..]);
      if gap == 0 || word == 0 then None else Some(rest[gap..][..word])
  }

  /** The regular expression's meaning, independently of how it is computed: the keyword,
      a white-space run from the keyword's end to `k`, then `name`, a maximal run of other
      characters. */
  ghost predicate CapturedAt(line: string, name: string, k: nat) {
    var a := |AttributeKeyword|;
    StartsWithIgnoreCase(line, AttributeKeyword) && name != [] && NoSpace(name) &&
    a < k && k + |name| <= |line| &&
    AllSpace(line[a..k]) && line[k..k + |name|] == name &&
    (k + |name| == |line| || IsSpace(line[k + |name|]))
  }

  ghost predicate Captures(line: string, name: string) {
    exists k :: CapturedAt(line, name, k)
  }

  /** `AttributeName` finds exactly the name the regular expression captures. */
  lemma AttributeNameCaptures(line: string, name: string)
    ensures AttributeName(line) == Some(name) <==> Captures(line, name)
  {
    if AttributeName(line) == Some(name) {
      var k := NameIsCaptured(line, name);
    }
    if Captures(line, name) {
      var k :| CapturedAt(line, name, k);
      CapturedIsName(line, name, k);
    }
  }

  lemma NameIsCaptured(line: string, name: string) returns (k: nat)
    requires AttributeName(line) == Some(name)
    ensures CapturedAt(line, name, k)
  {
    var a := |AttributeKeyword|;
    assert StartsWithIgnoreCase(line, AttributeKeyword);
    var rest := line[a..];
    var gap := SpaceRun(rest);
    k := a + gap;
    assert |rest| == |line| - a && gap <= |rest|;
    assert line[a..k] == rest[..gap];
    assert line[k..k + |name|] == rest[gap..][..|name|];
    assert k + |name| < |line| ==> line[k + |name|] == rest[gap..][|name|];
  }

  lemma CapturedIsName(line: string, name: string, k: nat)
    requires CapturedAt(line, name, k)
    ensures AttributeName(line) == Some(name)
  {
    var a := |AttributeKeyword|;
    var rest := line[a..];
    CapturedGap(line, name, k);
    var w := rest[k - a..];
    assert w[..|name|] == name;
    assert |name| < |w| ==> w[|name|] == line[k + |name|];
    WordEnds(w, |name|);
  }

  /** The white-space run after the keyword ends where the captured name starts. */
  lemma CapturedGap(line: string, name: string, k: nat)
    requires CapturedAt(line, name, k)
    ensures SpaceRun(line[|AttributeKeyword|..]) == k - |AttributeKeyword|
  {
    var a := |AttributeKeyword|;
    var rest := line[a..];
    assert rest[..k - a] == line[a..k];
    assert rest[k - a] == line[k] == name[0];
    GapEnds(rest, k - a);
  }

  /** A white-space prefix followed by another character is the whole white-space run. */
  lemma GapEnds(s: string, k: nat)
    requires 0 < k < |s| && AllSpace(s[..k]) && !IsSpace(s[k])
    ensures SpaceRun(s) == k
  {
    var g := SpaceRun(s);
    forall i | 0 <= i < k ensures IsSpace(s[i]) {
      assert s[..k][i] == s[i];
    }
    forall i | 0 <= i < g ensures IsSpace(s[i]) {
      assert s[..g][i] == s[i];
    }
  }

  /** A word prefix followed by white space or the end is the whole word run. */
  lemma WordEnds(s: string, n: nat)
    requires 0 < n <= |s| && NoSpace(s[..n]) && (n == |s| || IsSpace(s[n]))
    ensures WordRun(s) == n
  {
    var w := WordRun(s);
    forall i | 0 <= i < n ensures !IsSpace(s[i]) {
      assert s[..n][i] == s[i];
    }
    forall i | 0 <= i < w ensures !IsSpace(s[i]) {
      assert s[..w][i] == s[i];
    }
  }

  /** The group `(.*)` of `\{(.*)\}`: from after the first `{` to before the last `}`,
      when that `}` comes after the `{`. */
  function BraceContent(line: string): (content: Option<string>)
    ensures content.None? <==> !exists i, j | 0 <= i < j < |line| :: line[i] == '{' && line[j] == '}'
    ensures content.Some? ==> exists i, j | 0 <= i < j < |line| ::
      line[i] == '{' && line[j] == '}' && content.value == line[i + 1..j] &&
      '{' !in line[..i] && '}' !in line[j + 1..]
  {
    match (FirstIndex(line, '{'), LastIndex(line, '}'))
    case (Some(i), Some(j)) =>
      if i < j then Some(line[i + 1..j])
      else
        assert forall a, b | 0 <= a < b < |line| && line[a] == '{' && line[b] == '}' :: i <= a && b <= j;
        None
    case _ => None
  }

  /** Position of the first `c` in `s`. */
  function FirstIndex(s: string, c: char): (r: Option<nat>)
    ensures r.None? <==> c !in s
    ensures r.Some? ==> r.value < |s| && s[r.value] == c && c !in s[..r.value]
  {
    if s == [] then None
    else if s[0] == c then Some(0)
    else match FirstIndex(s[1..], c)
      case None => None
      case Some(k) =>
        assert s[..k + 1] == [s[0]] + s[1..][..k];
        Some(k + 1)
  }

  /** Position of the last `c` in `s`. */
  function LastIndex(s: string, c: char): (r: Option<nat>)
    ensures r.None? <==> c !in s
    ensures r.Some? ==> r.value < |s| && s[r.value] == c && c !in s[r.value + 1..]
  {
    if s == [] then None
    else if s[|s| - 1] == c then Some(|s| - 1)
    else
      var r := LastIndex(s[..|s| - 1], c);
      if r.Some? then
        assert s[r.value + 1..] == s[..|s| - 1][r.value + 1..] + [s[|s| - 1]];
        r
      else r
  }

  /** The labels `([^,]+),?` finds in a brace list: each maximal non-empty run of
      characters other than `,`, trimmed (a run of white space becomes an empty label). */
  function Pieces(parts: seq<string>): (labels: seq<string>)
    ensures |labels| <= |parts|
    ensures forall k | 0 <= k < |labels| :: Trimmed(labels[k])
  {
    if parts == [] then []
    else
      var init := Pieces(parts[..|parts| - 1]);
      var last := parts[|parts| - 1];
      if last == [] then init else init + [Trim(last)]
  }

  function Labels(content: string): seq<string> {
    Pieces(Split(content, ','))
  }

  /** A comma-separated list whose pieces are labels padded with white space, as in
      `{a, b ,c}`, is read back label by label; a piece of white space only gives an
      empty label. */
  lemma {:induction false} LabelsOfJoin(parts: seq<string>, pres: seq<string>, labels: seq<string>, posts: seq<string>)
    requires |parts| >= 1 && |pres| == |parts| && |labels| == |parts| && |posts| == |parts|
    requires forall k | 0 <= k < |parts| ::
      parts[k] == pres[k] + labels[k] + posts[k] && parts[k] != [] &&
      AllSpace(pres[k]) && AllSpace(posts[k]) && Trimmed(labels[k]) && ',' !in labels[k]
    ensures Labels(Join(parts, ',')) == labels
  {
    forall k | 0 <= k < |parts| ensures ',' !in parts[k] {
      NoCommaInSpace(pres[k]);
      NoCommaInSpace(posts[k]);
    }
    JoinSplit(parts, ',');
    PiecesOfPadded(parts, pres, labels, posts);
  }

  lemma NoCommaInSpace(s: string)
    requires AllSpace(s)
    ensures ',' !in s
  {
    forall i | 0 <= i < |s| ensures s[i] != ',' {
      assert IsSpace(s[i]);
    }
  }

  lemma {:induction false} PiecesOfPadded(parts: seq<string>, pres: seq<string>, labels: seq<string>, posts: seq<string>)
    requires |pres| == |parts| && |labels| == |parts| && |posts| == |parts|
    requires forall k | 0 <= k < |parts| ::
      parts[k] == pres[k] + labels[k] + posts[k] && parts[k] != [] &&
      AllSpace(pres[k]) && AllSpace(posts[k]) && Trimmed(labels[k])
    ensures Pieces(parts) == labels
  {
    if parts != [] {
      var i := |parts| - 1;
      PiecesOfPadded(parts[..i], pres[..i], labels[..i], posts[..i]);
      TrimAround(pres[i], labels[i], posts[i]);
      assert labels == labels[..i] + [labels[i]];
    }
  }

  /** The pieces of a list are read independently of each other. */
  lemma {:induction false} PiecesAppend(a: seq<string>, b: seq<string>)
    ensures Pieces(a + b) == Pieces(a) + Pieces(b)
    decreases |b|
  {
    if b == [] {
      assert a + b == a;
    } else {
      var i := |b| - 1;
      var init, last := b[..i], b[i];
      PiecesAppend(a, init);
      SnocParts(a, b);
      PiecesSnoc(a + init, last);
      PiecesSnoc(init, last);
      ConcatAssoc(Pieces(a), Pieces(init), if last == [] then [] else [Trim(last)]);
    }
  }

  lemma PiecesSnoc(parts: seq<string>, last: string)
    ensures Pieces(parts + [last]) == Pieces(parts) + (if last == [] then [] else [Trim(last)])
  {
    assert (parts + [last])[..|parts|] == parts;
  }

  lemma SnocParts(a: seq<string>, b: seq<string>)
    requires b != []
    ensures a + b == (a + b[..|b| - 1]) + [b[|b| - 1]]
    ensures b == b[..|b| - 1] + [b[|b| - 1]]
  {
  }

  lemma ConcatAssoc(x: seq<string>, y: seq<string>, z: seq<string>)
    ensures (x + y) + z == x + (y + z)
  {
  }

  /** An empty piece, as between the commas of `a,,b`, gives no label: `[^,]+` needs at
      least one character. */
  lemma EmptyPieceSkipped(a: seq<string>, b: seq<string>)
    ensures Pieces(a + [[]] + b) == Pieces(a + b)
  {
    PiecesAppend(a + [[]], b);
    PiecesAppend(a, [[]]);
    PiecesAppend(a, b);
    var empty: seq<string> := [[]];
    assert empty[..0] == [];
  }

  /** The domain declared by an attribute line: the brace list plus `"?"`, or an empty
      continuous domain when the line has no brace list. */
  function Domain(line: string): (c: Class)
    ensures c.Nominal? <==> BraceContent(line).Some?
    ensures c.Nominal? ==> |c.labels| >= 1 && c.labels[|c.labels| - 1] == "?"
    ensures c.Nominal? ==> c.labels[..|c.labels| - 1] == Labels(BraceContent(line).value)
    ensures c.Continuous? ==> c.max == 0
  {
    match BraceContent(line)
    case Some(content) =>
      var labels := Labels(content);
      assert (labels + ["?"])[..|labels|] == labels;
      Nominal(labels + ["?"])
    case None => Continuous(0)
  }

  /** A header line: an attribute declaration adds a name and a domain; otherwise a line
      starting with `@data` (in any case) switches to data lines; anything else is skipped. */
  function HeaderLine(ld: Loader, line: string): (next: Loader)
    requires !ld.data
    ensures next.arff.records == ld.arff.records
    ensures AttributeName(line).Some? ==>
      !next.data &&
      next.arff.labels == ld.arff.labels + [AttributeName(line).value] &&
      next.arff.classes == ld.arff.classes + [Domain(line)]
    ensures AttributeName(line).None? ==>
      next.arff.labels == ld.arff.labels && next.arff.classes == ld.arff.classes &&
      (next.data <==> StartsWithIgnoreCase(line, DataKeyword))
  {
    match AttributeName(line)
    case Some(name) =>
      Loader(ld.arff.(labels := ld.arff.labels + [name], classes := ld.arff.classes + [Domain(line)]), false)
    case None =>
      if StartsWithIgnoreCase(line, DataKeyword) then ld.(data := true) else ld
  }

  // ----- data lines -----

  /** A token the domain accepts: one of the labels, or a number. */
  predicate Accepts(c: Class, token: string, bucket: Bucket) {
    match c
    case Nominal(labels) => token in labels
    case Continuous(_) => bucket(token).Some?
  }

  /** One token resolved against its domain: the label's first position, or the bucket,
      which also raises a continuous domain's maximum. */
  function Resolve(c: Class, token: string, bucket: Bucket): Option<(nat, Class)> {
    match c
    case Nominal(labels) =>
      (match IndexOf(labels, token)
       case Some(k) => Some((k, c))
       case None => None)
    case Continuous(max) =>
      (match bucket(token)
       case Some(v) => Some((v, Continuous(if v > max then v else max)))
       case None => None)
  }

  /** What resolving a token does, stated without the position search. */
  lemma ResolveMeaning(c: Class, token: string, bucket: Bucket)
    ensures Resolve(c, token, bucket).Some? <==> Accepts(c, token, bucket)
    ensures Resolve(c, token, bucket).Some? ==> Resolved(c, token, bucket, Resolve(c, token, bucket).value.0, Resolve(c, token, bucket).value.1)
  {
  }

  /** `v` is the value of `token` in domain `c`, and `c2` the domain afterwards. */
  predicate Resolved(c: Class, token: string, bucket: Bucket, v: nat, c2: Class) {
    match c
    case Nominal(labels) =>
      c2 == c && v < |labels| && labels[v] == token && token !in labels[..v]
    case Continuous(max) =>
      bucket(token) == Some(v) && c2 == Continuous(if v > max then v else max)
  }

  /** The values of a data line's tokens, in order, and the domains after them. */
  datatype Row = Row(values: seq<nat>, classes: seq<Class>)

  /** The tokens of a data line resolved left to right against the domains of their
      columns; the first token without a column or rejected by its domain aborts. */
  function ResolveAll(classes: seq<Class>, tokens: seq<string>, bucket: Bucket): (r: Result<Row, Failure>)
    ensures r.Ok? ==> |r.value.values| == |tokens| && |r.value.classes| == |classes|
  {
    if tokens == [] then Ok(Row([], classes))
    else
      var i := |tokens| - 1;
      match ResolveAll(classes, tokens[..i], bucket)
      case Err(f) => Err(f)
      case Ok(row) =>
        if i >= |row.classes| then Err(NoColumn(i))
        else match Resolve(row.classes[i], tokens[i], bucket)
          case None => Err(if row.classes[i].Nominal? then NoLabel(i) else NotANumber(i))
          case Some((v, c)) => Ok(Row(row.values + [v], row.classes[i := c]))
  }

  /** A line resolves iff it has no more tokens than there are columns and each domain
      accepts its token; then each value is the token's value in its column's domain,
      and the columns past the line's end keep their domains. */
  lemma {:induction false} ResolveAllOk(classes: seq<Class>, tokens: seq<string>, bucket: Bucket)
    ensures ResolveAll(classes, tokens, bucket).Ok? <==>
      |tokens| <= |classes| && forall k | 0 <= k < |tokens| :: Accepts(classes[k], tokens[k], bucket)
    ensures ResolveAll(classes, tokens, bucket).Ok? ==>
      var row := ResolveAll(classes, tokens, bucket).value;
      (forall k | 0 <= k < |tokens| :: Resolved(classes[k], tokens[k], bucket, row.values[k], row.classes[k])) &&
      (forall k | |tokens| <= k < |classes| :: row.classes[k] == classes[k])
    decreases |tokens|
  {
    if tokens != [] {
      var i := |tokens| - 1;
      ResolveAllOk(classes, tokens[..i], bucket);
      var r := ResolveAll(classes, tokens[..i], bucket);
      if r.Ok? && i < |classes| {
        var row := r.value;
        assert row.classes[i] == classes[i];
        ResolveMeaning(classes[i], tokens[i], bucket);
      }
    }
  }

  /** A line that does not resolve fails at its first offending token, for that token's
      reason. */
  lemma {:induction false} ResolveAllFails(classes: seq<Class>, tokens: seq<string>, bucket: Bucket)
    requires ResolveAll(classes, tokens, bucket).Err?
    ensures var f := ResolveAll(classes, tokens, bucket).error;
      f.column < |tokens| &&
      (forall k | 0 <= k < f.column :: k < |classes| && Accepts(classes[k], tokens[k], bucket)) &&
      (f.NoColumn? <==> f.column >= |classes|) &&
      (f.NoLabel? ==> classes[f.column].Nominal? && tokens[f.column] !in classes[f.column].labels) &&
      (f.NotANumber? ==> classes[f.column].Continuous? && bucket(tokens[f.column]).None?)
    decreases |tokens|
  {
    var i := |tokens| - 1;
    var r := ResolveAll(classes, tokens[..i], bucket);
    ResolveAllOk(classes, tokens[..i], bucket);
    if r.Err? {
      ResolveAllFails(classes, tokens[..i], bucket);
    } else if i < |classes| {
      assert r.value.classes[i] == classes[i];
      ResolveMeaning(classes[i], tokens[i], bucket);
    }
  }

  /** A data line: its comma-separated tokens (not trimmed) resolved; the last value is
      the record's class and the others its features. */
  function DataLine(arff: Arff, line: string, bucket: Bucket): (r: Result<Arff, Failure>)
    ensures r.Ok? ==>
      r.value.labels == arff.labels && |r.value.classes| == |arff.classes| &&
      |r.value.records| == |arff.records| + 1 && r.value.records[..|arff.records|] == arff.records
  {
    var tokens := Split(line, ',');
    match ResolveAll(arff.classes, tokens, bucket)
    case Err(f) => Err(f)
    case Ok(row) =>
      var n := |row.values|;
      var rec := Record(row.values[n - 1], row.values[..n - 1]);
      assert (arff.records + [rec])[..|arff.records|] == arff.records;
      Ok(arff.(records := arff.records + [rec], classes := row.classes))
  }

  /** One line of the file. */
  function Feed(ld: Loader, line: string, bucket: Bucket): Result<Loader, Failure> {
    if IsComment(line) then Ok(ld)
    else if ld.data then
      match DataLine(ld.arff, line, bucket)
      case Err(f) => Err(f)
      case Ok(arff) => Ok(Loader(arff, true))
    else Ok(HeaderLine(ld, line))
  }

  /** The lines fed one after another; the first failure aborts with its line position. */
  function Run(ld: Loader, lines: seq<string>, bucket: Bucket): Result<Loader, Abort>
    decreases |lines|
  {
    if lines == [] then Ok(ld)
    else
      var i := |lines| - 1;
      match Run(ld, lines[..i], bucket)
      case Err(a) => Err(a)
      case Ok(prev) =>
        match Feed(prev, lines[i], bucket)
        case Err(f) => Err(Abort(i, f))
        case Ok(next) => Ok(next)
  }

  /** `Arff::parse`: the lines of the text fed to the loader in order. */
  method Parse(contents: string, bucket: Bucket) returns (r: Result<Arff, Abort>)
    ensures r.Ok? <==> Run(Start, Lines(contents), bucket).Ok?
    ensures r.Ok? ==> r.value == Run(Start, Lines(contents), bucket).value.arff
    ensures r.Err? ==> r.error.line < |Lines(contents)| && r.error == Run(Start, Lines(contents), bucket).error
  {
    var lines := Lines(contents);
    var ld := Start;
    var i := 0;
    while i < |lines|
      invariant i <= |lines|
      invariant Run(Start, lines[..i], bucket) == Ok(ld)
    {
      assert lines[..i + 1][..i] == lines[..i];
      match Feed(ld, lines[i], bucket)
      case Err(f) =>
        RunAbortsAfter(Start, lines, i + 1, bucket);
        return Err(Abort(i, f));
      case Ok(next) =>
        ld := next;
      i := i + 1;
    }
    assert lines[..i] == lines;
    return Ok(ld.arff);
  }

  /** A failure on a prefix of the lines is the failure of all of them. */
  lemma {:induction false} RunAbortsAfter(ld: Loader, lines: seq<string>, n: nat, bucket: Bucket)
    requires n <= |lines| && Run(ld, lines[..n], bucket).Err?
    ensures Run(ld, lines, bucket) == Run(ld, lines[..n], bucket)
    ensures Run(ld, lines, bucket).error.line < n
    decreases |lines|
  {
    if n < |lines| {
      var i := |lines| - 1;
      assert lines[..i][..n] == lines[..n];
      RunAbortsAfter(ld, lines[..i], n, bucket);
    } else {
      assert lines[..n] == lines;
      RunAbortLine(ld, lines, bucket);
    }
  }

  lemma {:induction false} RunAbortLine(ld: Loader, lines: seq<string>, bucket: Bucket)
    requires Run(ld, lines, bucket).Err?
    ensures Run(ld, lines, bucket).error.line < |lines|
    decreases |lines|
  {
    var i := |lines| - 1;
    if Run(ld, lines[..i], bucket).Err? {
      RunAbortLine(ld, lines[..i], bucket);
    }
  }

  // ----- what the loader guarantees -----

  /** The value of column `k` of a record: a feature, or the class in the last column. */
  function Column(r: Record, k: nat): Option<nat> {
    if k < |r.features| then Some(r.features[k])
    else if k == |r.features| then Some(r.target)
    else None
  }

  /** The largest value any record has in column `k`, 0 when none has the column. */
  function MaxColumn(records: seq<Record>, k: nat): (m: nat)
    ensures forall i | 0 <= i < |records| && Column(records[i], k).Some? :: Column(records[i], k).value <= m
    ensures m == 0 || exists i | 0 <= i < |records| :: Column(records[i], k) == Some(m)
  {
    if records == [] then 0
    else
      var init := records[..|records| - 1];
      var m := MaxColumn(init, k);
      var c := Column(records[|records| - 1], k);
      assert forall i | 0 <= i < |init| :: init[i] == records[i];
      if c.Some? && c.value > m then c.value else m
  }

  /** Domain `c` of column `k` agrees with the records: a nominal domain has a label for
      every value, and a continuous domain's maximum is the largest value seen. */
  predicate Fits(records: seq<Record>, k: nat, c: Class) {
    match c
    case Nominal(labels) =>
      forall i | 0 <= i < |records| && Column(records[i], k).Some? :: Column(records[i], k).value < |labels|
    case Continuous(max) => max == MaxColumn(records, k)
  }

  /** A loaded file: one name per domain, no record wider than the attributes, and every
      domain fitting its column. */
  predicate Consistent(a: Arff) {
    |a.labels| == |a.classes| &&
    (forall i | 0 <= i < |a.records| :: |a.records[i].features| < |a.classes|) &&
    (forall k | 0 <= k < |a.classes| :: Fits(a.records, k, a.classes[k]))
  }

  /** What holds between lines: a consistent file, and no record before `@data`. */
  predicate Loaded(ld: Loader) {
    Consistent(ld.arff) && (!ld.data ==> ld.arff.records == [])
  }

  /** `b` is domain `a` after more data: the same labels, or a maximum no smaller. */
  predicate Refines(a: Class, b: Class) {
    match a
    case Nominal(_) => b == a
    case Continuous(m) => b.Continuous? && b.max >= m
  }

  predicate AllRefine(a: seq<Class>, b: seq<Class>) {
    |a| == |b| && forall k | 0 <= k < |a| :: Refines(a[k], b[k])
  }

  /** A data line's record, column by column: the values resolved from its tokens. */
  lemma DataLineRecord(arff: Arff, line: string, bucket: Bucket)
    requires DataLine(arff, line, bucket).Ok?
    ensures var next := DataLine(arff, line, bucket).value;
      var tokens := Split(line, ',');
      var rec := next.records[|arff.records|];
      |rec.features| + 1 == |tokens| && |tokens| <= |arff.classes| &&
      (forall k | 0 <= k < |tokens| ::
        Column(rec, k).Some? && Resolved(arff.classes[k], tokens[k], bucket, Column(rec, k).value, next.classes[k])) &&
      (forall k | |tokens| <= k < |arff.classes| :: Column(rec, k).None? && next.classes[k] == arff.classes[k])
  {
    var tokens := Split(line, ',');
    ResolveAllOk(arff.classes, tokens, bucket);
  }

  /** A data line keeps the file consistent and only refines its domains. */
  lemma DataLineKeeps(arff: Arff, line: string, bucket: Bucket)
    requires Consistent(arff) && DataLine(arff, line, bucket).Ok?
    ensures Consistent(DataLine(arff, line, bucket).value)
    ensures AllRefine(arff.classes, DataLine(arff, line, bucket).value.classes)
  {
    var next := DataLine(arff, line, bucket).value;
    var n := |arff.records|;
    var rec := next.records[n];
    DataLineRecord(arff, line, bucket);
    assert next.records == arff.records + [rec];
    forall k | 0 <= k < |next.classes|
      ensures Fits(next.records, k, next.classes[k]) && Refines(arff.classes[k], next.classes[k])
    {
      assert Fits(arff.records, k, arff.classes[k]);
      FitsAppend(arff.records, rec, k, arff.classes[k], next.classes[k]);
    }
  }

  /** Appending a record whose value in column `k` the domain step resolved keeps the
      domain fitting the column. */
  lemma FitsAppend(records: seq<Record>, rec: Record, k: nat, c: Class, c2: Class)
    requires Fits(records, k, c)
    requires Column(rec, k).None? ==> c2 == c
    requires Column(rec, k).Some? ==> exists t, bucket :: Resolved(c, t, bucket, Column(rec, k).value, c2)
    ensures Fits(records + [rec], k, c2) && Refines(c, c2)
  {
    var all := records + [rec];
    assert all[..|records|] == records;
    assert MaxColumn(all, k) == (if Column(rec, k).Some? && Column(rec, k).value > MaxColumn(records, k) then Column(rec, k).value else MaxColumn(records, k));
    if c.Nominal? {
      forall i | 0 <= i < |all| && Column(all[i], k).Some? ensures Column(all[i], k).value < |c2.labels| {
        if i < |records| {
          assert all[i] == records[i];
        }
      }
    }
  }

  /** Every line keeps the loader's guarantees. */
  lemma FeedKeeps(ld: Loader, line: string, bucket: Bucket)
    requires Loaded(ld) && Feed(ld, line, bucket).Ok?
    ensures Loaded(Feed(ld, line, bucket).value)
  {
    if !IsComment(line) {
      if ld.data {
        DataLineKeeps(ld.arff, line, bucket);
      } else {
        var next := HeaderLine(ld, line);
        assert next.arff.records == [];
      }
    }
  }

  /** Whatever the loader reads from the start, its result is consistent: in particular
      each continuous domain's maximum is the largest bucket of its column and each
      nominal value indexes a label. */
  lemma {:induction false} RunKeeps(lines: seq<string>, bucket: Bucket)
    requires Run(Start, lines, bucket).Ok?
    ensures Loaded(Run(Start, lines, bucket).value)
    decreases |lines|
  {
    if lines != [] {
      var i := |lines| - 1;
      RunKeeps(lines[..i], bucket);
      FeedKeeps(Run(Start, lines[..i], bucket).value, lines[i], bucket);
    }
  }

  /** The lines that are not comments. */
  function Uncommented(lines: seq<string>): (kept: seq<string>)
    ensures |kept| <= |lines|
    ensures forall k | 0 <= k < |kept| :: !IsComment(kept[k])
  {
    if lines == [] then []
    else
      var init := Uncommented(lines[..|lines| - 1]);
      var last := lines[|lines| - 1];
      if IsComment(last) then init else init + [last]
  }

  /** Running one more line after a prefix. */
  lemma RunSnoc(ld: Loader, lines: seq<string>, line: string, bucket: Bucket)
    ensures Run(ld, lines + [line], bucket) ==
      match Run(ld, lines, bucket)
      case Err(a) => Err(a)
      case Ok(prev) =>
        (match Feed(prev, line, bucket)
         case Err(f) => Err(Abort(|lines|, f))
         case Ok(next) => Ok(next))
  {
    assert (lines + [line])[..|lines|] == lines;
  }

  /** Comment lines change nothing: dropping them all gives the same result, and a
      failure for the same reason. */
  lemma {:induction false} CommentsIgnored(ld: Loader, lines: seq<string>, bucket: Bucket)
    ensures Run(ld, lines, bucket).Ok? <==> Run(ld, Uncommented(lines), bucket).Ok?
    ensures Run(ld, lines, bucket).Ok? ==> Run(ld, Uncommented(lines), bucket) == Run(ld, lines, bucket)
    ensures Run(ld, lines, bucket).Err? ==>
      Run(ld, Uncommented(lines), bucket).error.failure == Run(ld, lines, bucket).error.failure
    decreases |lines|
  {
    if lines != [] {
      var i := |lines| - 1;
      var init := lines[..i];
      var last := lines[i];
      CommentsIgnored(ld, init, bucket);
      if !IsComment(last) {
        RunSnoc(ld, Uncommented(init), last, bucket);
      }
    }
  }

  /** Once `@data` is seen the header is fixed: data lines never leave data mode, never
      change the names, keep every nominal domain and only raise continuous maxima, and
      each line that is not a comment appends one record after the earlier ones. */
  lemma {:induction false} DataModeKeepsHeader(ld: Loader, lines: seq<string>, bucket: Bucket)
    requires ld.data && Run(ld, lines, bucket).Ok?
    ensures var next := Run(ld, lines, bucket).value;
      next.data && next.arff.labels == ld.arff.labels &&
      AllRefine(ld.arff.classes, next.arff.classes) &&
      |next.arff.records| == |ld.arff.records| + |Uncommented(lines)| &&
      next.arff.records[..|ld.arff.records|] == ld.arff.records
    decreases |lines|
  {
    if lines != [] {
      var i := |lines| - 1;
      DataModeKeepsHeader(ld, lines[..i], bucket);
      var prev := Run(ld, lines[..i], bucket).value;
      if !IsComment(lines[i]) {
        var next := DataLine(prev.arff, lines[i], bucket).value;
        DataLineRecord(prev.arff, lines[i], bucket);
        DataLineRefines(prev.arff, lines[i], bucket);
        assert next.records[..|prev.arff.records|] == prev.arff.records;
        assert next.records[..|ld.arff.records|] == prev.arff.records[..|ld.arff.records|];
        forall k | 0 <= k < |ld.arff.classes| ensures Refines(ld.arff.classes[k], next.classes[k]) {
          RefinesTransitive(ld.arff.classes[k], prev.arff.classes[k], next.classes[k]);
        }
      }
    }
  }

  lemma DataLineRefines(arff: Arff, line: string, bucket: Bucket)
    requires DataLine(arff, line, bucket).Ok?
    ensures AllRefine(arff.classes, DataLine(arff, line, bucket).value.classes)
  {
    DataLineRecord(arff, line, bucket);
  }

  lemma RefinesTransitive(a: Class, b: Class, c: Class)
    requires Refines(a, b) && Refines(b, c)
    ensures Refines(a, c)
  {
  }
}

=== FILE: evaluate.dfy ===
/** Accuracy of a trained tree on held-out records (src/evaluate.rs `evaluate`), and how
    a loaded file meets the trainer's demands. */
module Evaluate {
  import opened Outcomes
  import opened Records
  import opened Tree
  import opened Arff
  import opened Train

  /** `evaluate`: predict every record, count the hits and divide by the number of
      records. The source divides in `f64` and gets `NaN` for no records; the model
      returns `None` there and the exact quotient otherwise. */
  method Evaluate(nodes: seq<Node>, vs: seq<Record>) returns (correct: nat, accuracy: Option<real>)
    requires Ordered(nodes) && AllWalkable(nodes, vs)
    ensures correct == |Hits(nodes, vs)| && correct == TestSet(nodes, vs)
    ensures accuracy.None? <==> vs == []
    ensures accuracy.Some? ==>
      0.0 <= accuracy.value <= 1.0 && accuracy.value * (|vs| as real) == correct as real
  {
    correct := 0;
    var i := 0;
    while i < |vs|
      invariant i <= |vs| && AllWalkable(nodes, vs[..i])
      invariant correct == TestSet(nodes, vs[..i])
    {
      assert vs[..i + 1][..i] == vs[..i];
      var predicted := Predict(nodes, vs[i]);
      if predicted == vs[i].target {
        correct := correct + 1;
      }
      i := i + 1;
    }
    assert vs[..i] == vs;
    TestSetCountsHits(nodes, vs);
    accuracy := Accuracy(correct, |vs|);
  }

  /** The fraction of hits, undefined for no records. */
  function Accuracy(correct: nat, total: nat): (a: Option<real>)
    requires correct <= total
    ensures a.None? <==> total == 0
    ensures a.Some? ==> 0.0 <= a.value <= 1.0 && a.value * (total as real) == correct as real
  {
    if total == 0 then None else Some(correct as real / total as real)
  }

  /** A loaded file whose class attribute is nominal, with at least one record and every
      record as wide as the attribute list, is a problem the trainer accepts. */
  lemma LoadedIsTrainable(a: Arff, cost: Cost)
    requires Consistent(a) && a.records != [] && |a.classes| > 0
    requires a.classes[|a.classes| - 1].Nominal?
    requires forall i | 0 <= i < |a.records| :: |a.records[i].features| + 1 == |a.classes|
    ensures ValidProblem(Problem(a.records, a.classes, cost))
  {
    var p := Problem(a.records, a.classes, cost);
    var k := |a.classes| - 1;
    assert Fits(a.records, k, a.classes[k]);
    assert Column(a.records[0], k).Some?;
    forall i | 0 <= i < |a.records| ensures ValidRecord(p, a.records[i]) {
      assert Column(a.records[i], k) == Some(a.records[i].target);
    }
  }
}

=== FILE: metrics.dfy ===
/** Structural metrics of an arena (src/decision.rs `count_children`, `count_live_nodes`,
    `max_children`, `max_depth`, `count_pruned_nodes`, lines 254-290). The source folds
    over the values of a `HashMap`, in no particular order; the model visits the path
    values in increasing order, which a sum or a maximum does not notice. */
module Metrics {
  import opened Records
  import opened Tree
  import opened Train

  /** A bound above every key of `s`. */
  ghost function KeyBound(s: set<nat>): (b: nat)
    ensures forall k | k in s :: k < b
  {
    if s == {} then 0
    else
      var k :| k in s;
      var b := KeyBound(s - {k});
      assert forall j | j in s :: j == k || j in s - {k};
      if k + 1 > b then k + 1 else b
  }

  /** `count_children`: a leaf counts 1, and a branch counts `1 + count_children(child)`
      for each of its paths. */
  ghost function CountChildren(nodes: seq<Node>, i: nat): nat
    requires Ordered(nodes) && i < |nodes|
    decreases |nodes| - i, 1
  {
    match nodes[i]
    case Leaf(_) => 1
    case Branch(paths, _, _) => CountBelow(nodes, i, KeyBound(paths.Keys))
  }

  /** The part of the sum of `count_children` for the path values below `b`. */
  ghost function CountBelow(nodes: seq<Node>, i: nat, b: nat): nat
    requires Ordered(nodes) && i < |nodes| && nodes[i].Branch?
    decreases |nodes| - i, 0, b
  {
    if b == 0 then 0
    else
      CountBelow(nodes, i, b - 1) +
      (if b - 1 in nodes[i].paths then 1 + CountChildren(nodes, nodes[i].paths[b - 1]) else 0)
  }

  /** The number of entries of the subtree under `i`, each counted once per path that
      leads to it. */
  ghost function Size(nodes: seq<Node>, i: nat): nat
    requires Ordered(nodes) && i < |nodes|
    decreases |nodes| - i, 1
  {
    match nodes[i]
    case Leaf(_) => 1
    case Branch(paths, _, _) => 1 + SizeBelow(nodes, i, KeyBound(paths.Keys))
  }

  ghost function SizeBelow(nodes: seq<Node>, i: nat, b: nat): nat
    requires Ordered(nodes) && i < |nodes| && nodes[i].Branch?
    decreases |nodes| - i, 0, b
  {
    if b == 0 then 0
    else
      SizeBelow(nodes, i, b - 1) +
      (if b - 1 in nodes[i].paths then Size(nodes, nodes[i].paths[b - 1]) else 0)
  }

  /** The number of leaves of the subtree under `i`, counted the same way. */
  ghost function Leaves(nodes: seq<Node>, i: nat): nat
    requires Ordered(nodes) && i < |nodes|
    decreases |nodes| - i, 1
  {
    match nodes[i]
    case Leaf(_) => 1
    case Branch(paths, _, _) => LeavesBelow(nodes, i, KeyBound(paths.Keys))
  }

  ghost function LeavesBelow(nodes: seq<Node>, i: nat, b: nat): nat
    requires Ordered(nodes) && i < |nodes| && nodes[i].Branch?
    decreases |nodes| - i, 0, b
  {
    if b == 0 then 0
    else
      LeavesBelow(nodes, i, b - 1) +
      (if b - 1 in nodes[i].paths then Leaves(nodes, nodes[i].paths[b - 1]) else 0)
  }

  /** What `count_children` really counts: every entry of the subtree except its top,
      plus every leaf a second time. */
  lemma {:induction false} CountChildrenIdentity(nodes: seq<Node>, i: nat)
    requires Ordered(nodes) && i < |nodes|
    ensures CountChildren(nodes, i) + 1 == Size(nodes, i) + Leaves(nodes, i)
    decreases |nodes| - i, 1
  {
    if nodes[i].Branch? {
      CountBelowIdentity(nodes, i, KeyBound(nodes[i].paths.Keys));
    }
  }

  lemma {:induction false} CountBelowIdentity(nodes: seq<Node>, i: nat, b: nat)
    requires Ordered(nodes) && i < |nodes| && nodes[i].Branch?
    ensures CountBelow(nodes, i, b) == SizeBelow(nodes, i, b) + LeavesBelow(nodes, i, b)
    decreases |nodes| - i, 0, b
  {
    if b > 0 {
      CountBelowIdentity(nodes, i, b - 1);
      if b - 1 in nodes[i].paths {
        CountChildrenIdentity(nodes, nodes[i].paths[b - 1]);
      }
    }
  }

  /** `count_pruned_nodes` as written: the arena length minus `count_children(0)`, which
      is only defined when the subtraction does not underflow. */
  ghost function CountPrunedNodesAsWritten(nodes: seq<Node>): (n: nat)
    requires Ordered(nodes) && |nodes| > 0 && CountChildren(nodes, 0) <= |nodes|
    ensures n + Size(nodes, 0) + Leaves(nodes, 0) == |nodes| + 1
  {
    CountChildrenIdentity(nodes, 0);
    |nodes| - CountChildren(nodes, 0)
  }

  /** A root with two leaves: three entries, but `count_children(0)` is 4, so
      `count_pruned_nodes` underflows. */
  lemma CountPrunedNodesUnderflows()
    ensures Ordered([Branch(map[0 := 1, 1 := 2], 0, 0), Leaf(0), Leaf(1)])
    ensures CountChildren([Branch(map[0 := 1, 1 := 2], 0, 0), Leaf(0), Leaf(1)], 0) == 4
  {
    var nodes := [Branch(map[0 := 1, 1 := 2], 0, 0), Leaf(0), Leaf(1)];
    var paths := map[0 := 1, 1 := 2];
    var b := KeyBound(paths.Keys);
    assert nodes[0].paths == paths && 1 in paths.Keys;
    assert b >= 2;
    CountBelowFrom(nodes, 0, 2, b);
    assert CountBelow(nodes, 0, 1) == 2;
    assert CountBelow(nodes, 0, 2) == 4;
  }

  /** Raising the bound past every key adds nothing. */
  lemma {:induction false} CountBelowFrom(nodes: seq<Node>, i: nat, a: nat, b: nat)
    requires Ordered(nodes) && i < |nodes| && nodes[i].Branch? && a <= b
    requires forall k | k in nodes[i].paths :: k < a
    ensures CountBelow(nodes, i, b) == CountBelow(nodes, i, a)
    decreases b
  {
    if b > a {
      CountBelowFrom(nodes, i, a, b - 1);
    }
  }

  /** The entries reachable from the root: those `predict` can still visit. */
  ghost function Reachable(nodes: seq<Node>): set<nat>
    requires Ordered(nodes)
  {
    set k | 0 <= k < |nodes| && Reaches(nodes, 0, k)
  }

  /** `count_live_nodes`, corrected: the number of entries reachable from the root. */
  ghost function LiveNodes(nodes: seq<Node>): (n: nat)
    requires Ordered(nodes)
    ensures n <= |nodes|
    ensures |nodes| > 0 ==> n >= 1
  {
    ReachableWithin(nodes);
    assert |nodes| > 0 ==> Reaches(nodes, 0, 0) && 0 in Reachable(nodes);
    |Reachable(nodes)|
  }

  lemma ReachableWithin(nodes: seq<Node>)
    requires Ordered(nodes)
    ensures Reachable(nodes) <= Range(|nodes|)
    ensures |Reachable(nodes)| <= |nodes|
  {
    SubsetSize(Reachable(nodes), Range(|nodes|));
  }

  /** The indices below `n`. */
  function Range(n: nat): (r: set<nat>)
    ensures forall k: nat :: k in r <==> k < n
    ensures |r| == n
  {
    if n == 0 then {} else
      var r := Range(n - 1);
      assert n - 1 !in r;
      r + {n - 1}
  }

  lemma SubsetSize(a: set<nat>, b: set<nat>)
    requires a <= b
    ensures |a| <= |b|
  {
    assert b == a + (b - a);
  }

  /** `count_pruned_nodes`, corrected: the entries no walk from the root can visit. It
      never underflows. */
  ghost function CountPrunedNodes(nodes: seq<Node>): (n: nat)
    requires Ordered(nodes)
    ensures n + LiveNodes(nodes) == |nodes|
  {
    |nodes| - LiveNodes(nodes)
  }

  /** Removing paths only shrinks what the root reaches. */
  lemma {:induction false} ClearedReachesLess(a: seq<Node>, b: seq<Node>, i: nat, k: nat)
    requires Ordered(a) && ClearedFrom(a, b) && Reaches(b, i, k)
    ensures Ordered(b) && Reaches(a, i, k)
    decreases |b| - i
  {
    ClearedKeepsOrder(a, b);
    if i != k {
      var v :| v in b[i].paths && Reaches(b, b[i].paths[v], k);
      assert b[i] == a[i];
      ClearedReachesLess(a, b, b[i].paths[v], k);
    }
  }

  /** Pruning never makes an entry live again: the pruned count only grows. */
  lemma ClearedPrunesMore(a: seq<Node>, b: seq<Node>)
    requires Ordered(a) && ClearedFrom(a, b)
    ensures Ordered(b) && Reachable(b) <= Reachable(a)
    ensures CountPrunedNodes(b) >= CountPrunedNodes(a)
  {
    ClearedKeepsOrder(a, b);
    forall k | k in Reachable(b) ensures k in Reachable(a) {
      ClearedReachesLess(a, b, 0, k);
    }
    SubsetSize(Reachable(b), Reachable(a));
  }

  /** In a trained arena every entry hangs under its parent, so all are live and nothing
      counts as pruned. */
  lemma {:induction false} TrainedReachable(p: Problem, nodes: seq<Node>, origin: seq<Item>, k: nat)
    requires ArenaInv(p, nodes, origin) && k < |nodes|
    ensures Reaches(nodes, 0, k)
    decreases k
  {
    if k > 0 {
      assert LinkedBack(nodes, origin, k);
      var Link(q, v) := origin[k].link.value;
      TrainedReachable(p, nodes, origin, q);
      ReachesStep(nodes, 0, q, v);
    }
  }

  /** One more path at the end of a reachable entry. */
  lemma {:induction false} ReachesStep(nodes: seq<Node>, i: nat, q: nat, v: nat)
    requires Ordered(nodes) && Reaches(nodes, i, q) && q < |nodes|
    requires nodes[q].Branch? && v in nodes[q].paths
    ensures Reaches(nodes, i, nodes[q].paths[v])
    decreases |nodes| - i
  {
    if i == q {
      var k := nodes[q].paths[v];
      assert Reaches(nodes, k, k);
    } else {
      var w :| w in nodes[i].paths && Reaches(nodes, nodes[i].paths[w], q);
      ReachesStep(nodes, nodes[i].paths[w], q, v);
    }
  }

  lemma TrainedNothingPruned(p: Problem, nodes: seq<Node>, origin: seq<Item>)
    requires Trained(p, nodes, origin)
    ensures LiveNodes(nodes) == |nodes| && CountPrunedNodes(nodes) == 0
  {
    forall k | k in Range(|nodes|) ensures k in Reachable(nodes) {
      TrainedReachable(p, nodes, origin, k);
    }
    ReachableWithin(nodes);
    assert Reachable(nodes) == Range(|nodes|);
  }

  /** `max_children`: a leaf is 1, and a branch is one more than the largest value over its
      paths (0 when it has none). */
  ghost function MaxChildren(nodes: seq<Node>, i: nat): (m: nat)
    requires Ordered(nodes) && i < |nodes|
    ensures 1 <= m <= |nodes| - i
    decreases |nodes| - i, 1
  {
    match nodes[i]
    case Leaf(_) => 1
    case Branch(paths, _, _) => MaxBelow(nodes, i, KeyBound(paths.Keys)) + 1
  }

  /** The largest `max_children` over the paths of branch `i` for values below `b`. */
  ghost function MaxBelow(nodes: seq<Node>, i: nat, b: nat): (m: nat)
    requires Ordered(nodes) && i < |nodes| && nodes[i].Branch?
    ensures m < |nodes| - i
    ensures forall v | v < b && v in nodes[i].paths :: MaxChildren(nodes, nodes[i].paths[v]) <= m
    ensures m == 0 || exists v | v < b && v in nodes[i].paths :: MaxChildren(nodes, nodes[i].paths[v]) == m
    decreases |nodes| - i, 0, b
  {
    if b == 0 then 0
    else
      var m := MaxBelow(nodes, i, b - 1);
      if b - 1 in nodes[i].paths && MaxChildren(nodes, nodes[i].paths[b - 1]) > m then
        MaxChildren(nodes, nodes[i].paths[b - 1])
      else m
  }

  /** Number of entries `predict` visits for `r` from entry `i`. */
  function WalkLength(nodes: seq<Node>, i: nat, r: Record): nat
    requires Ordered(nodes) && Walkable(nodes, i, r)
    decreases |nodes| - i
  {
    match nodes[i]
    case Leaf(_) => 1
    case Branch(paths, f, _) =>
      if r.features[f] in paths then 1 + WalkLength(nodes, paths[r.features[f]], r) else 1
  }

  /** `max_depth` bounds the number of entries any prediction visits. */
  lemma {:induction false} WalkWithinDepth(nodes: seq<Node>, i: nat, r: Record)
    requires Ordered(nodes) && Walkable(nodes, i, r)
    ensures WalkLength(nodes, i, r) <= MaxChildren(nodes, i)
    decreases |nodes| - i
  {
    if nodes[i].Branch? && r.features[nodes[i].feature] in nodes[i].paths {
      var v := r.features[nodes[i].feature];
      WalkWithinDepth(nodes, nodes[i].paths[v], r);
      var b := KeyBound(nodes[i].paths.Keys);
      assert v < b;
    }
  }

  /** In a trained arena the subtree under an entry is at most one level deeper than the
      number of features still unused there. */
  lemma {:induction false} TrainedDepth(p: Problem, nodes: seq<Node>, origin: seq<Item>, i: nat)
    requires ArenaInv(p, nodes, origin) && i < |nodes|
    ensures |origin[i].used| <= Features(p)
    ensures MaxChildren(nodes, i) <= Features(p) - |origin[i].used| + 1
    decreases |nodes| - i
  {
    assert ItemOk(p, origin[i]);
    if nodes[i].Branch? {
      var b := KeyBound(nodes[i].paths.Keys);
      var m := MaxBelow(nodes, i, b);
      if m > 0 {
        var v :| v < b && v in nodes[i].paths && MaxChildren(nodes, nodes[i].paths[v]) == m;
        ChildUsesOneMore(p, nodes, origin, i, v);
        TrainedDepth(p, nodes, origin, nodes[i].paths[v]);
      }
    }
  }

  /** Below a branch one more feature is used. */
  lemma ChildUsesOneMore(p: Problem, nodes: seq<Node>, origin: seq<Item>, i: nat, v: nat)
    requires ArenaInv(p, nodes, origin) && i < |nodes| && nodes[i].Branch? && v in nodes[i].paths
    ensures nodes[i].paths[v] < |nodes|
    ensures |origin[nodes[i].paths[v]].used| == |origin[i].used| + 1
  {
    var f, c := nodes[i].feature, nodes[i].paths[v];
    FeatureUnused(p, nodes, origin, i);
    assert PathsFit(nodes, origin, i);
    assert origin[c].used == origin[i].used + {f};
    AddFresh(origin[i].used, f);
  }

  lemma AddFresh(s: set<nat>, x: nat)
    requires x !in s
    ensures |s + {x}| == |s| + 1
  {
  }

  /** `max_depth` of a trained arena is at most the number of features plus one. */
  lemma TrainedMaxDepth(p: Problem, nodes: seq<Node>, origin: seq<Item>)
    requires Trained(p, nodes, origin)
    ensures MaxChildren(nodes, 0) <= Features(p) + 1
  {
    TrainedDepth(p, nodes, origin, 0);
  }
}

=== FILE: outcomes.dfy ===
/** Optional values and results, used where the source returns an `Option` or panics. */
module Outcomes {

  datatype Option<+T> = None | Some(value: T)

  /** Either a value or a description of why the source would have aborted. */
  datatype Result<+T, +E> = Ok(value: T) | Err(error: E)
}

=== FILE: prune.dfy ===
/** Greedy reduced-error pruning (src/decision.rs `prune`, lines 217-252). Accuracies over
    the validation set are compared as correct-prediction counts: the source divides each
    by the same length, which keeps their order when the set is not empty. Each trial
    clears a copy of the arena, so a trial never changes the arena it scores. */
module Prune {
  import opened Outcomes
  import opened Records
  import opened Tree

  /** A branch that still has paths: clearing it changes the arena. */
  predicate Live(n: Node) {
    n.Branch? && n.paths != map[]
  }

  /** The score of trying to clear entry `j`: the validation count with its paths removed
      for a live branch, and 0 for a leaf or an already cleared branch, which the source
      does not try. */
  function TrialScore(nodes: seq<Node>, vs: seq<Record>, j: nat): (score: nat)
    requires Ordered(nodes) && AllWalkable(nodes, vs) && j < |nodes|
    ensures score <= |vs|
  {
    if Live(nodes[j]) then
      ClearedKeepsAllWalkable(nodes, Clear(nodes, j), vs);
      TestSet(Clear(nodes, j), vs)
    else 0
  }

  /** The scores of all entries, in arena order. */
  function Trials(nodes: seq<Node>, vs: seq<Record>): (scores: seq<nat>)
    requires Ordered(nodes) && AllWalkable(nodes, vs)
    ensures |scores| == |nodes|
    ensures forall j | 0 <= j < |nodes| :: scores[j] == TrialScore(nodes, vs, j)
  {
    seq(|nodes|, j requires 0 <= j < |nodes| => TrialScore(nodes, vs, j))
  }

  /** What one iteration of the pruning loop decides. */
  datatype Decision = Done | Commit(entry: nat) | Panic

  /** One iteration of `prune` as written: score every entry, take the LAST best one and
      clear it if it scores at least the current count; a leaf reaching that point hits
      `unreachable!()`, and an empty arena makes `max_by(..).unwrap()` panic. */
  function StepAsWritten(nodes: seq<Node>, vs: seq<Record>): (d: Decision)
    requires Ordered(nodes) && AllWalkable(nodes, vs) && vs != []
    ensures d.Done? <==> |nodes| > 0 && forall j | 0 <= j < |nodes| :: TrialScore(nodes, vs, j) < TestSet(nodes, vs)
    ensures d.Commit? ==>
      d.entry < |nodes| && nodes[d.entry].Branch? &&
      TrialScore(nodes, vs, d.entry) >= TestSet(nodes, vs) &&
      (forall j | 0 <= j < |nodes| :: TrialScore(nodes, vs, j) <= TrialScore(nodes, vs, d.entry)) &&
      (forall j | d.entry < j < |nodes| :: TrialScore(nodes, vs, j) < TrialScore(nodes, vs, d.entry))
    ensures d.Commit? <==>
      |nodes| > 0 && nodes[LastMax(Trials(nodes, vs))].Branch? &&
      TrialScore(nodes, vs, LastMax(Trials(nodes, vs))) >= TestSet(nodes, vs)
    ensures d.Commit? ==> d.entry == LastMax(Trials(nodes, vs))
    ensures d.Panic? <==>
      |nodes| == 0 ||
      (nodes[LastMax(Trials(nodes, vs))].Leaf? && TrialScore(nodes, vs, LastMax(Trials(nodes, vs))) >= TestSet(nodes, vs))
  {
    if |nodes| == 0 then Panic
    else
      var scores := Trials(nodes, vs);
      var w := LastMax(scores);
      if scores[w] >= TestSet(nodes, vs) then
        if nodes[w].Branch? then Commit(w) else Panic
      else Done
  }

  /** Which entries are live branches. */
  function LiveMask(nodes: seq<Node>): (live: seq<bool>)
    ensures |live| == |nodes| && forall j | 0 <= j < |nodes| :: live[j] == Live(nodes[j])
  {
    seq(|nodes|, j requires 0 <= j < |nodes| => Live(nodes[j]))
  }

  /** The candidate of best score among the positions below `i` marked in `live`, the
      last one on ties, as `max_by` would pick among those candidates only. */
  function BestLive(scores: seq<nat>, live: seq<bool>, i: nat): (best: Option<nat>)
    requires |live| == |scores| && i <= |scores|
    ensures best.None? <==> forall j | 0 <= j < i :: !live[j]
    ensures best.Some? ==> best.value < i && live[best.value]
    ensures best.Some? ==> forall j | 0 <= j < i && live[j] :: scores[j] <= scores[best.value]
    ensures best.Some? ==> forall j | best.value < j < i && live[j] :: scores[j] < scores[best.value]
  {
    if i == 0 then None
    else
      var best := BestLive(scores, live, i - 1);
      if !live[i - 1] then best
      else if best.None? || scores[i - 1] >= scores[best.value] then Some(i - 1)
      else best
  }

  /** One iteration of the corrected `prune`: only live branches are candidates, the last
      one of best trial score is picked, as `max_by` picks, and the loop stops when there
      is none or when the best one would lose accuracy. */
  function PruneStep(nodes: seq<Node>, vs: seq<Record>): (d: Decision)
    requires Ordered(nodes) && AllWalkable(nodes, vs) && vs != []
    ensures !d.Panic?
    ensures d.Done? <==>
      forall j | 0 <= j < |nodes| && Live(nodes[j]) :: TrialScore(nodes, vs, j) < TestSet(nodes, vs)
    ensures d.Commit? ==>
      d.entry < |nodes| && Live(nodes[d.entry]) &&
      TrialScore(nodes, vs, d.entry) >= TestSet(nodes, vs) &&
      (forall j | 0 <= j < |nodes| && Live(nodes[j]) :: TrialScore(nodes, vs, j) <= TrialScore(nodes, vs, d.entry)) &&
      (forall j | d.entry < j < |nodes| && Live(nodes[j]) :: TrialScore(nodes, vs, j) < TrialScore(nodes, vs, d.entry))
  {
    var scores := Trials(nodes, vs);
    match BestLive(scores, LiveMask(nodes), |nodes|)
    case None => Done
    case Some(w) => if scores[w] >= TestSet(nodes, vs) then Commit(w) else Done
  }

  /** Number of live branches of the arena. */
  function LiveCount(nodes: seq<Node>): (n: nat)
    ensures n <= |nodes|
  {
    if nodes == [] then 0
    else LiveCount(nodes[..|nodes| - 1]) + (if Live(nodes[|nodes| - 1]) then 1 else 0)
  }

  /** Clearing a live branch leaves one live branch fewer. */
  lemma {:induction false} ClearLowersLive(nodes: seq<Node>, j: nat)
    requires j < |nodes| && Live(nodes[j])
    ensures LiveCount(Clear(nodes, j)) + 1 == LiveCount(nodes)
  {
    var c := Clear(nodes, j);
    var last := |nodes| - 1;
    if j < last {
      ClearLowersLive(nodes[..last], j);
      assert c[..last] == Clear(nodes[..last], j);
    } else {
      assert c[..last] == nodes[..last];
    }
  }

  /** `prune`, corrected: commit the best live trial while it does not lose validation
      accuracy. Only paths are ever removed, the arena keeps its length, the validation
      count never decreases, and at the end no single live branch can be cleared without
      losing accuracy. */
  method Prune(nodes: seq<Node>, vs: seq<Record>) returns (pruned: seq<Node>)
    requires Ordered(nodes) && AllWalkable(nodes, vs) && vs != []
    ensures ClearedFrom(nodes, pruned) && Ordered(pruned) && AllWalkable(pruned, vs)
    ensures TestSet(pruned, vs) >= TestSet(nodes, vs)
    ensures forall j | 0 <= j < |pruned| && Live(pruned[j]) :: TrialScore(pruned, vs, j) < TestSet(pruned, vs)
  {
    pruned := nodes;
    while true
      invariant ClearedFrom(nodes, pruned) && Ordered(pruned) && AllWalkable(pruned, vs)
      invariant TestSet(pruned, vs) >= TestSet(nodes, vs)
      decreases LiveCount(pruned)
    {
      var d := PruneStep(pruned, vs);
      if d.Done? {
        return;
      }
      var next := Clear(pruned, d.entry);
      ClearLowersLive(pruned, d.entry);
      ClearedFromTransitive(nodes, pruned, next);
      ClearedKeepsAllWalkable(pruned, next, vs);
      pruned := next;
    }
  }

  /** Whenever the current validation count is positive, the step as written and the
      corrected step decide the same: every entry it could pick that is not a live branch
      scores 0, below the current count. */
  lemma AsWrittenAgrees(nodes: seq<Node>, vs: seq<Record>)
    requires Ordered(nodes) && AllWalkable(nodes, vs) && vs != [] && |nodes| > 0 && TestSet(nodes, vs) > 0
    ensures StepAsWritten(nodes, vs) == PruneStep(nodes, vs)
  {
    var scores := Trials(nodes, vs);
    var live := LiveMask(nodes);
    var best := BestLive(scores, live, |nodes|);
    var d := StepAsWritten(nodes, vs);
    if d.Commit? {
      var w := d.entry;
      assert live[w];
      assert best.Some?;
      assert scores[best.value] <= scores[w];
      assert scores[w] <= scores[best.value];
    }
  }

  /** A validation record the arena misclassifies, with no live branch that fixes it. */
  function Lonely(): seq<Record> {
    [Record(0, [0])]
  }

  /** As written, a zero count and a trailing leaf send the leaf to `unreachable!()`: no
      trial beats 0, so the last entry wins the tie. The corrected step clears the root. */
  lemma AsWrittenPanicsOnLeaf()
    ensures Ordered([Branch(map[0 := 1], 0, 1), Leaf(1)])
    ensures AllWalkable([Branch(map[0 := 1], 0, 1), Leaf(1)], Lonely())
    ensures TestSet([Branch(map[0 := 1], 0, 1), Leaf(1)], Lonely()) == 0
    ensures StepAsWritten([Branch(map[0 := 1], 0, 1), Leaf(1)], Lonely()) == Panic
    ensures PruneStep([Branch(map[0 := 1], 0, 1), Leaf(1)], Lonely()) == Commit(0)
  {
    var nodes := [Branch(map[0 := 1], 0, 1), Leaf(1)];
    var r := Record(0, [0]);
    assert Walkable(nodes, 1, r);
    assert Decide(nodes, 0, r) == 1;
    assert Lonely()[..0] == [];
    assert TestSet(nodes, Lonely()) == 0;
    var c := Clear(nodes, 0);
    assert Decide(c, 0, r) == 1;
    assert TestSet(c, Lonely()) == 0;
    assert Trials(nodes, Lonely()) == [0, 0];
  }

  /** As written, a zero count and a trailing cleared branch commit that branch again and
      again: clearing it changes nothing, so the loop never ends. The corrected step stops. */
  lemma AsWrittenLoopsOnClearedBranch()
    ensures Ordered([Branch(map[], 0, 1)]) && AllWalkable([Branch(map[], 0, 1)], Lonely())
    ensures TestSet([Branch(map[], 0, 1)], Lonely()) == 0
    ensures StepAsWritten([Branch(map[], 0, 1)], Lonely()) == Commit(0)
    ensures Clear([Branch(map[], 0, 1)], 0) == [Branch(map[], 0, 1)]
    ensures PruneStep([Branch(map[], 0, 1)], Lonely()) == Done
  {
    var nodes := [Branch(map[], 0, 1)];
    assert Lonely()[..0] == [];
    assert TestSet(nodes, Lonely()) == 0;
    assert Trials(nodes, Lonely()) == [0];
  }
}

=== FILE: records.dfy ===
/** Integer-coded records and the class statistics the tree builder computes over them
    (src/decision.rs: `build_distribution`, the class-count test, the majority choice
    and the grouping of a subset by one feature). */
module Records {

  /** One data row: the class index (`target`, the source's `class` field) and one value
      index per non-class attribute, each an index into that attribute's domain
      (src/record.rs is not part of this model; its shape is
      `{class: usize, features: Vec<usize>}`). */
  datatype Record = Record(target: nat, features: seq<nat>)

  /** Number of records of `s` whose class is `c`. */
  function CountClass(s: seq<Record>, c: nat): (n: nat)
    ensures n <= |s|
    ensures n == 0 <==> forall i | 0 <= i < |s| :: s[i].target != c
  {
    if s == [] then 0
    else CountClass(s[..|s| - 1], c) + (if s[|s| - 1].target == c then 1 else 0)
  }

  /** Every class index of `s` fits a class domain of `k` labels; `build_distribution`
      indexes its counters by class and panics otherwise. */
  predicate ClassesBelow(s: seq<Record>, k: nat) {
    forall i | 0 <= i < |s| :: s[i].target < k
  }

  /** `build_distribution`: `k` zeroed counters, then one increment per record. */
  function Distribution(s: seq<Record>, k: nat): (d: seq<nat>)
    requires ClassesBelow(s, k)
    ensures |d| == k
    ensures forall c | 0 <= c < k :: d[c] == CountClass(s, c)
  {
    if s == [] then seq(k, _ => 0)
    else
      var d := Distribution(s[..|s| - 1], k);
      var c := s[|s| - 1].target;
      d[c := d[c] + 1]
  }

  /** Number of non-zero counters: the `class_count` of `train`. */
  function Support(d: seq<nat>): (n: nat)
    ensures n <= |d|
  {
    if d == [] then 0
    else Support(d[..|d| - 1]) + (if d[|d| - 1] > 0 then 1 else 0)
  }

  /** All records of `s` share one class (and there is at least one record). */
  predicate Pure(s: seq<Record>) {
    s != [] && forall i | 0 <= i < |s| :: s[i].target == s[0].target
  }

  /** The classes that occur in `s`. */
  ghost function ClassSet(s: seq<Record>): set<nat> {
    set i | 0 <= i < |s| :: s[i].target
  }

  ghost function NonZero(d: seq<nat>): set<nat> {
    set c | 0 <= c < |d| && d[c] > 0
  }

  lemma {:induction false} SupportCountsNonZero(d: seq<nat>)
    ensures Support(d) == |NonZero(d)|
  {
    if d != [] {
      var p := d[..|d| - 1];
      SupportCountsNonZero(p);
      if d[|d| - 1] > 0 {
        assert NonZero(d) == NonZero(p) + {|d| - 1};
        assert |d| - 1 !in NonZero(p);
      } else {
        assert NonZero(d) == NonZero(p);
      }
    }
  }

  lemma SingletonSet(S: set<nat>, x: nat)
    requires x in S && |S| == 1
    ensures S == {x}
  {
    assert |S - {x}| == 0;
  }

  /** The leaf test of `train`: exactly one counter of the distribution is non-zero iff
      the subset is non-empty and all of its records have the same class. */
  lemma PureIffOneClass(s: seq<Record>, k: nat)
    requires ClassesBelow(s, k)
    ensures Support(Distribution(s, k)) == 1 <==> Pure(s)
  {
    var d := Distribution(s, k);
    SupportCountsNonZero(d);
    assert NonZero(d) == ClassSet(s) by {
      forall c | c in ClassSet(s) ensures c in NonZero(d) {
        var i :| 0 <= i < |s| && s[i].target == c;
        assert CountClass(s, c) > 0;
      }
    }
    if Pure(s) {
      assert ClassSet(s) == {s[0].target};
    }
    if |ClassSet(s)| == 1 {
      assert s != [];
      assert s[0].target in ClassSet(s);
      SingletonSet(ClassSet(s), s[0].target);
      forall i | 0 <= i < |s| ensures s[i].target == s[0].target {
        assert s[i].target in ClassSet(s);
      }
    }
  }

  /** The index `max_by` picks from `d.iter().enumerate()` when comparing the values: it
      keeps the LAST of several equal maxima. This is the `majority_class` of a branch
      (ties go to the highest class index) and the node `prune` picks (ties go to the
      highest arena index). */
  function LastMax(d: seq<nat>): (m: nat)
    requires |d| > 0
    ensures m < |d|
    ensures forall c | 0 <= c < |d| :: d[c] <= d[m]
    ensures forall c | m < c < |d| :: d[c] < d[m]
  {
    if |d| == 1 then 0
    else
      var m := LastMax(d[..|d| - 1]);
      if d[|d| - 1] >= d[m] then |d| - 1 else m
  }

  /** `record.features[f] == v`, false when the record has no column `f`. */
  predicate HasValue(r: Record, f: nat, v: nat) {
    f < |r.features| && r.features[f] == v
  }

  /** The records of `s` whose feature `f` is `v`, in their original order. */
  function Filter(s: seq<Record>, f: nat, v: nat): (g: seq<Record>)
    ensures |g| <= |s|
    ensures forall i | 0 <= i < |g| :: HasValue(g[i], f, v) && g[i] in s
  {
    if s == [] then []
    else
      var g := Filter(s[..|s| - 1], f, v);
      if HasValue(s[|s| - 1], f, v) then g + [s[|s| - 1]] else g
  }

  /** `Filter` keeps exactly the records of `s` that have value `v`, and each as often as
      it occurs in `s`. */
  lemma {:induction false} FilterKeeps(s: seq<Record>, f: nat, v: nat)
    ensures forall r :: r in Filter(s, f, v) <==> r in s && HasValue(r, f, v)
    ensures multiset(Filter(s, f, v)) <= multiset(s)
  {
    if s != [] {
      FilterKeeps(s[..|s| - 1], f, v);
      assert s == s[..|s| - 1] + [s[|s| - 1]];
    }
  }

  /** The records of `s` whose feature `f` is below `b`. */
  function Below(s: seq<Record>, f: nat, b: nat): (g: seq<Record>) {
    if s == [] then []
    else
      var g := Below(s[..|s| - 1], f, b);
      var r := s[|s| - 1];
      if f < |r.features| && r.features[f] < b then g + [r] else g
  }

  /** Largest value of feature `f` in `s` (0 when none); bounds every observed value. */
  function MaxValue(s: seq<Record>, f: nat): (m: nat)
    ensures forall i | 0 <= i < |s| && f < |s[i].features| :: s[i].features[f] <= m
  {
    if s == [] then 0
    else
      var m := MaxValue(s[..|s| - 1], f);
      var r := s[|s| - 1];
      if f < |r.features| && r.features[f] > m then r.features[f] else m
  }

  /** The union of the groups for values `0..b`. */
  function Groups(s: seq<Record>, f: nat, b: nat): multiset<Record> {
    if b == 0 then multiset{} else Groups(s, f, b - 1) + multiset(Filter(s, f, b - 1))
  }

  lemma {:induction false} BelowStep(s: seq<Record>, f: nat, b: nat)
    ensures multiset(Below(s, f, b + 1)) == multiset(Below(s, f, b)) + multiset(Filter(s, f, b))
  {
    if s != [] {
      BelowStep(s[..|s| - 1], f, b);
    }
  }

  /** The groups by value of feature `f` partition the records whose value is below `b`:
      each such record lies in exactly the group of its own value. */
  lemma {:induction false} GroupsPartition(s: seq<Record>, f: nat, b: nat)
    ensures Groups(s, f, b) == multiset(Below(s, f, b))
  {
    if b == 0 {
      BelowNothing(s, f);
    } else {
      var p := b - 1;
      GroupsPartition(s, f, p);
      BelowStep(s, f, p);
      assert Groups(s, f, b) == Groups(s, f, p) + multiset(Filter(s, f, p));
    }
  }

  lemma {:induction false} BelowNothing(s: seq<Record>, f: nat)
    ensures Below(s, f, 0) == []
  {
    if s != [] {
      BelowNothing(s[..|s| - 1], f);
    }
  }

  /** When every record has column `f` and all its values are below `b`, nothing is
      dropped. */
  lemma {:induction false} BelowEverything(s: seq<Record>, f: nat, b: nat)
    requires forall i | 0 <= i < |s| :: f < |s[i].features| && s[i].features[f] < b
    ensures Below(s, f, b) == s
  {
    if s != [] {
      BelowEverything(s[..|s| - 1], f, b);
      assert s == s[..|s| - 1] + [s[|s| - 1]];
    }
  }

  /** The grouping done by `into_group_map` partitions the subset it groups. */
  lemma GroupingPartitions(s: seq<Record>, f: nat)
    requires forall i | 0 <= i < |s| :: f < |s[i].features|
    ensures Groups(s, f, MaxValue(s, f) + 1) == multiset(s)
  {
    GroupsPartition(s, f, MaxValue(s, f) + 1);
    BelowEverything(s, f, MaxValue(s, f) + 1);
  }
}

=== FILE: text.dfy ===
/** The string operations the loader relies on, with the meaning Rust's standard library
    gives them: `char::is_whitespace`, `str::trim`, `str::split` on one character,
    `str::lines`, and the ASCII case-insensitive prefix test the loader's regular
    expressions perform on their fixed letters. */
module Text {
  import opened Outcomes

  /** Unicode White_Space, the set `str::trim` and the regex class `\s` use. */
  predicate IsSpace(c: char) {
    var u := c as int;
    (0x09 <= u <= 0x0D) || u == 0x20 || u == 0x85 || u == 0xA0 || u == 0x1680 ||
    (0x2000 <= u <= 0x200A) || u == 0x2028 || u == 0x2029 || u == 0x202F ||
    u == 0x205F || u == 0x3000
  }

  predicate AllSpace(s: string) {
    forall i | 0 <= i < |s| :: IsSpace(s[i])
  }

  /** `s` neither starts nor ends with white space. */
  predicate Trimmed(s: string) {
    s == [] || (!IsSpace(s[0]) && !IsSpace(s[|s| - 1]))
  }

  function TrimStart(s: string): (t: string)
    ensures |t| <= |s| && t == s[|s| - |t|..]
    ensures AllSpace(s[..|s| - |t|])
    ensures t == [] || !IsSpace(t[0])
  {
    if s != [] && IsSpace(s[0]) then
      var t := TrimStart(s[1..]);
      SpacesBefore(s, |t|);
      t
    else s
  }

  function TrimEnd(s: string): (t: string)
    ensures |t| <= |s| && t == s[..|t|]
    ensures AllSpace(s[|t|..])
    ensures t == [] || !IsSpace(t[|t| - 1])
  {
    if s != [] && IsSpace(s[|s| - 1]) then
      var t := TrimEnd(s[..|s| - 1]);
      SpacesAfter(s, |t|);
      t
    else s
  }

  lemma SpacesBefore(s: string, n: nat)
    requires s != [] && IsSpace(s[0]) && n < |s| && AllSpace(s[1..][..|s[1..]| - n])
    ensures AllSpace(s[..|s| - n])
  {
    forall i | 0 <= i < |s| - n ensures IsSpace(s[i]) {
      if i > 0 {
        assert s[i] == s[1..][..|s[1..]| - n][i - 1];
      }
    }
  }

  lemma SpacesAfter(s: string, n: nat)
    requires s != [] && IsSpace(s[|s| - 1]) && n < |s| && AllSpace(s[..|s| - 1][n..])
    ensures AllSpace(s[n..])
  {
    forall i | n <= i < |s| ensures IsSpace(s[i]) {
      if i < |s| - 1 {
        assert s[i] == s[..|s| - 1][n..][i - n];
      }
    }
  }

  /** `str::trim`: the infix left after removing white space at both ends. */
  function Trim(s: string): (t: string)
    ensures Trimmed(t)
  {
    var a := TrimStart(s);
    var t := TrimEnd(a);
    assert t != [] ==> t[0] == a[0];
    t
  }

  /** What trimming removes: white space before `i` and from `j` on, and nothing else. */
  lemma TrimInfix(s: string) returns (i: nat, j: nat)
    ensures i <= j <= |s| && Trim(s) == s[i..j]
    ensures AllSpace(s[..i]) && AllSpace(s[j..])
  {
    var a := TrimStart(s);
    var t := TrimEnd(a);
    i := |s| - |a|;
    j := i + |t|;
    assert t == a[..|t|] && a == s[i..];
    assert s[j..] == a[|t|..];
  }

  /** Trimming removes exactly the white space around a trimmed core. */
  lemma TrimAround(pre: string, core: string, post: string)
    requires AllSpace(pre) && AllSpace(post) && Trimmed(core)
    ensures Trim(pre + core + post) == core
  {
    if core != [] {
      assert pre + core + post == pre + (core + post);
      TrimStartSkips(pre, core + post);
      TrimEndAround(core, post);
    } else {
      assert pre + core + post == pre + post;
      assert AllSpace(pre + post);
      TrimStartSkips(pre + post, []);
      assert pre + post + [] == pre + post;
    }
  }

  /** `TrimStart` drops exactly a leading run of white space. */
  lemma {:induction false} TrimStartSkips(pre: string, rest: string)
    requires AllSpace(pre) && (rest == [] || !IsSpace(rest[0]))
    ensures TrimStart(pre + rest) == rest
  {
    if pre != [] {
      assert (pre + rest)[1..] == pre[1..] + rest;
      TrimStartSkips(pre[1..], rest);
    } else {
      assert pre + rest == rest;
    }
  }

  lemma {:induction false} TrimEndAround(core: string, post: string)
    requires AllSpace(post) && Trimmed(core)
    ensures TrimEnd(core + post) == core
    decreases |post|
  {
    if post != [] {
      assert (core + post)[..|core + post| - 1] == core + post[..|post| - 1];
      TrimEndAround(core, post[..|post| - 1]);
    } else {
      assert core + post == core;
    }
  }

  /** `str::split` on one character: the maximal pieces between separators, at least one
      (empty ones included). */
  function Split(s: string, sep: char): (parts: seq<string>)
    ensures |parts| >= 1
    ensures forall k | 0 <= k < |parts| :: sep !in parts[k]
  {
    if s == [] then [[]]
    else
      var parts := Split(s[..|s| - 1], sep);
      var c := s[|s| - 1];
      if c == sep then parts + [[]]
      else
        var last := parts[|parts| - 1] + [c];
        assert sep !in last;
        parts[..|parts| - 1] + [last]
  }

  /** The pieces glued back with the separator between consecutive ones. */
  function Join(parts: seq<string>, sep: char): string
    requires |parts| >= 1
  {
    if |parts| == 1 then parts[0]
    else Join(parts[..|parts| - 1], sep) + [sep] + parts[|parts| - 1]
  }

  /** Splitting loses nothing: the pieces join back to the string. */
  lemma {:induction false} SplitJoin(s: string, sep: char)
    ensures Join(Split(s, sep), sep) == s
  {
    if s != [] {
      SplitJoin(s[..|s| - 1], sep);
      SplitJoinStep(s[..|s| - 1], s[|s| - 1], sep);
      LastSplits(s);
    }
  }

  /** The step of `SplitJoin` from a string to the string with one more character. */
  lemma SplitJoinStep(s: string, c: char, sep: char)
    requires Join(Split(s, sep), sep) == s
    ensures Join(Split(s + [c], sep), sep) == s + [c]
  {
    var parts := Split(s, sep);
    var n := |parts|;
    if c == sep {
      SplitSep(s, sep);
      JoinSnoc(parts, [], sep);
      assert s + [sep] + [] == s + [c];
    } else {
      LastSplits(parts);
      SplitExtends(parts[..n - 1], parts[n - 1], s, c, sep);
      if n == 1 {
        assert parts[..n - 1] + [parts[n - 1] + [c]] == [s + [c]];
      } else {
        JoinSnoc(parts[..n - 1], parts[n - 1], sep);
        JoinSnoc(parts[..n - 1], parts[n - 1] + [c], sep);
        AppendAssoc(Join(parts[..n - 1], sep) + [sep], parts[n - 1], [c]);
      }
    }
  }

  /** Joining one more piece puts a separator and the piece after the others. */
  lemma JoinSnoc(parts: seq<string>, last: string, sep: char)
    requires |parts| >= 1
    ensures Join(parts + [last], sep) == Join(parts, sep) + [sep] + last
  {
    assert (parts + [last])[..|parts|] == parts;
  }

  lemma LastSplits<T>(s: seq<T>)
    requires s != []
    ensures s[..|s| - 1] + [s[|s| - 1]] == s
  {
  }

  lemma AppendAssoc(x: string, y: string, z: string)
    ensures (x + y) + z == x + (y + z)
  {
  }

  /** Joining pieces free of the separator and splitting again gives the pieces back. */
  lemma {:induction false} JoinSplit(parts: seq<string>, sep: char)
    requires |parts| >= 1 && forall k | 0 <= k < |parts| :: sep !in parts[k]
    ensures Split(Join(parts, sep), sep) == parts
  {
    var n := |parts|;
    if n == 1 {
      SplitPlain([], parts[0], sep);
      assert [] + parts[0] == parts[0];
    } else {
      JoinSplit(parts[..n - 1], sep);
      JoinSplitStep(parts[..n - 1], parts[n - 1], sep);
      LastSplits(parts);
    }
  }

  /** The step of `JoinSplit` from some pieces to one piece more. */
  lemma JoinSplitStep(init: seq<string>, last: string, sep: char)
    requires |init| >= 1 && sep !in last && Split(Join(init, sep), sep) == init
    ensures Split(Join(init + [last], sep), sep) == init + [last]
  {
    var j := Join(init, sep);
    JoinSnoc(init, last, sep);
    SplitSep(j, sep);
    SplitPlain(j + [sep], last, sep);
    assert (init + [[]])[..|init|] == init;
    assert [] + last == last;
  }

  /** Characters other than the separator extend the last piece. */
  lemma {:induction false} SplitPlain(a: string, b: string, sep: char)
    requires sep !in b
    ensures Split(a + b, sep) ==
      Split(a, sep)[..|Split(a, sep)| - 1] + [Split(a, sep)[|Split(a, sep)| - 1] + b]
  {
    if b == [] {
      var p := Split(a, sep);
      assert a + b == a;
      assert p[|p| - 1] + b == p[|p| - 1];
      assert p[..|p| - 1] + [p[|p| - 1] + b] == p;
    } else {
      SplitPlain(a, b[..|b| - 1], sep);
      SplitPlainStep(Split(a, sep), a, b, sep);
    }
  }

  /** The step of `SplitPlain` from all but the last character of `b` to all of `b`. */
  lemma SplitPlainStep(p: seq<string>, a: string, b: string, sep: char)
    requires b != [] && sep !in b && p == Split(a, sep)
    requires Split(a + b[..|b| - 1], sep) == p[..|p| - 1] + [p[|p| - 1] + b[..|b| - 1]]
    ensures Split(a + b, sep) == p[..|p| - 1] + [p[|p| - 1] + b]
  {
    var b' := b[..|b| - 1];
    var c := b[|b| - 1];
    SplitExtends(p[..|p| - 1], p[|p| - 1] + b', a + b', c, sep);
    SnocSplits(a, b);
    SnocSplits(p[|p| - 1], b);
  }

  /** Appending all but the last character and then the last one appends them all. */
  lemma SnocSplits(x: string, b: string)
    requires b != []
    ensures (x + b[..|b| - 1]) + [b[|b| - 1]] == x + b
  {
  }

  /** Splitting `s` gives `init` and a last piece `last`; one more character other than the
      separator goes on that last piece. */
  lemma SplitExtends(init: seq<string>, last: string, s: string, c: char, sep: char)
    requires c != sep && Split(s, sep) == init + [last]
    ensures Split(s + [c], sep) == init + [last + [c]]
  {
    var q := Split(s, sep);
    SplitSnoc(s, c, sep);
    assert q[..|q| - 1] == init;
  }

  /** A separator at the end starts a new, empty piece. */
  lemma SplitSep(s: string, sep: char)
    ensures Split(s + [sep], sep) == Split(s, sep) + [[]]
  {
    assert (s + [sep])[..|s|] == s;
  }

  /** One more character other than the separator extends the last piece. */
  lemma SplitSnoc(s: string, c: char, sep: char)
    requires c != sep
    ensures Split(s + [c], sep) ==
      Split(s, sep)[..|Split(s, sep)| - 1] + [Split(s, sep)[|Split(s, sep)| - 1] + [c]]
  {
    assert (s + [c])[..|s|] == s;
  }

  /** `str::lines`: split at `\n`, drop the `\r` of a `\r\n` ending, and produce no line for
      the empty remainder after a final `\n`. */
  function Lines(s: string): (lines: seq<string>)
    ensures forall k | 0 <= k < |lines| :: '\n' !in lines[k]
  {
    var parts := Split(s, '\n');
    var n := |parts|;
    var ended := seq(n - 1, k requires 0 <= k < n - 1 => StripCarriageReturn(parts[k]));
    if parts[n - 1] == [] then ended else ended + [parts[n - 1]]
  }

  /** A line's `\r` before its `\n`, if there is one, is not part of the line. */
  function StripCarriageReturn(s: string): (t: string)
    ensures t == s || (s == t + ['\r'])
  {
    if s != [] && s[|s| - 1] == '\r' then s[..|s| - 1] else s
  }

  /** Every line followed by `\n`. */
  function Terminated(lines: seq<string>): string {
    if lines == [] then [] else Terminated(lines[..|lines| - 1]) + lines[|lines| - 1] + ['\n']
  }

  /** Writing lines out with `\n` after each and reading them back with `Lines` gives them
      back, when no line holds a `\n` or ends with `\r`. */
  lemma LinesOfTerminated(lines: seq<string>)
    requires forall k | 0 <= k < |lines| :: '\n' !in lines[k]
    requires forall k | 0 <= k < |lines| :: lines[k] == [] || lines[k][|lines[k]| - 1] != '\r'
    ensures Lines(Terminated(lines)) == lines
  {
    var parts := lines + [[]];
    TerminatedIsJoin(lines);
    JoinSplit(parts, '\n');
    var got := Lines(Terminated(lines));
    assert |got| == |lines|;
    forall k | 0 <= k < |lines| ensures got[k] == lines[k] {
      assert parts[k] == lines[k];
    }
  }

  lemma {:induction false} TerminatedIsJoin(lines: seq<string>)
    ensures Terminated(lines) == Join(lines + [[]], '\n')
  {
    if lines != [] {
      var init := lines[..|lines| - 1];
      var last := lines[|lines| - 1];
      TerminatedIsJoin(init);
      assert (lines + [[]])[..|lines|] == lines;
      assert lines[..|lines| - 1] == init;
      assert Join(lines, '\n') == Join(init + [[]], '\n') + last by {
        if |lines| == 1 {
          assert lines == [last];
          assert Join(init + [[]], '\n') == [];
        } else {
          assert (init + [[]])[..|init|] == init;
          assert Join(init + [[]], '\n') == Join(init, '\n') + ['\n'];
          assert lines[..|lines| - 1] == init;
        }
      }
    }
  }

  function Lower(c: char): char {
    if 'A' <= c <= 'Z' then (c as int + 32) as char else c
  }

  /** `s` begins with `prefix`, ignoring the case of ASCII letters. For the lower-case
      ASCII prefixes the loader uses this agrees with Unicode case-insensitive matching,
      since no other character folds to one of their letters. */
  predicate StartsWithIgnoreCase(s: string, prefix: string) {
    |prefix| <= |s| && forall k | 0 <= k < |prefix| :: Lower(s[k]) == Lower(prefix[k])
  }

  /** Position of the first element equal to `x`. */
  function IndexOf(xs: seq<string>, x: string): (r: Option<nat>)
    ensures r.None? <==> x !in xs
    ensures r.Some? ==> r.value < |xs| && xs[r.value] == x && forall k | 0 <= k < r.value :: xs[k] != x
  {
    if xs == [] then None
    else if xs[0] == x then Some(0)
    else match IndexOf(xs[1..], x)
      case None => None
      case Some(k) => Some(k + 1)
  }
}

=== FILE: train.dfy ===
/** Tree induction with an explicit work stack (src/decision.rs `train`, lines 51-156). */
module Train {
  import opened Outcomes
  import opened Records
  import opened Tree
  import opened Arff

  /** The per-value term of the split score: from the class distribution of the records
      that have one value of the candidate feature and the size of the subset being split,
      a number; lower is better. The source computes an entropy term in `f32`, dividing
      by the size of the PARENT subset; this model leaves the term abstract. */
  type Cost = (seq<nat>, nat) -> real

  /** What `train` is given: the records, the attribute domains (class last) and the
      split-score term. */
  datatype Problem = Problem(data: seq<Record>, tags: seq<Class>, cost: Cost)

  /** The class attribute is nominal, as `train` insists (`unreachable!()` otherwise),
      with at least one label (the `max_by(..).unwrap()` of the majority otherwise
      panics); the loader always gives it at least the `"?"` label. */
  predicate ValidTags(tags: seq<Class>) {
    |tags| > 0 && tags[|tags| - 1].Nominal? && |tags[|tags| - 1].labels| > 0
  }

  /** Number of non-class attributes. */
  function Features(p: Problem): nat
    requires ValidTags(p.tags)
  {
    |p.tags| - 1
  }

  /** Number of class labels: the `output_count` of `train`. */
  function Classes(p: Problem): nat
    requires ValidTags(p.tags)
  {
    |p.tags[|p.tags| - 1].labels|
  }

  /** A record `train` can process without an index panic. */
  predicate ValidRecord(p: Problem, r: Record)
    requires ValidTags(p.tags)
  {
    r.target < Classes(p) && |r.features| >= Features(p)
  }

  /** The source's demands on its input: a nominal class attribute and records whose
      indices fit; an empty training set makes the score `NaN` and the source panics. */
  predicate ValidProblem(p: Problem) {
    ValidTags(p.tags) && p.data != [] &&
    forall i | 0 <= i < |p.data| :: ValidRecord(p, p.data[i])
  }

  /** How many values of an attribute are scored: a nominal attribute's label count, or a
      continuous attribute's largest bucket, so that bucket itself is never scored. */
  function ScoredValues(c: Class): nat {
    match c
    case Nominal(labels) => |labels|
    case Continuous(max) => max
  }

  /** Sum of the per-value terms for values `0..count` of feature `f`. */
  function ScoreUpTo(p: Problem, s: seq<Record>, f: nat, count: nat): real
    requires ValidTags(p.tags) && ClassesBelow(s, Classes(p))
  {
    if count == 0 then 0.0
    else ScoreUpTo(p, s, f, count - 1) + p.cost(Distribution(Filter(s, f, count - 1), Classes(p)), |s|)
  }

  /** The score of every non-class attribute for subset `s`. */
  function Scores(p: Problem, s: seq<Record>): (scores: seq<real>)
    requires ValidTags(p.tags) && ClassesBelow(s, Classes(p))
    ensures |scores| == Features(p)
  {
    seq(Features(p), f requires 0 <= f < Features(p) => ScoreUpTo(p, s, f, ScoredValues(p.tags[f])))
  }

  /** `min_by` over the features `0..i` that are not in `used`: the FIRST one of minimal
      score, since a later candidate replaces the current one only when strictly smaller. */
  function FirstMin(scores: seq<real>, used: set<nat>, i: nat): (best: Option<nat>)
    requires i <= |scores|
    ensures best.None? <==> forall g | 0 <= g < i :: g in used
    ensures best.Some? ==> best.value < i && best.value !in used
    ensures best.Some? ==> forall g | 0 <= g < i && g !in used :: scores[best.value] <= scores[g]
    ensures best.Some? ==> forall g | 0 <= g < best.value && g !in used :: scores[best.value] < scores[g]
  {
    if i == 0 then None
    else
      var best := FirstMin(scores, used, i - 1);
      if i - 1 in used then best
      else if best.None? || scores[i - 1] < scores[best.value] then Some(i - 1)
      else best
  }

  /** A set of features below `n` with fewer than `n` members misses one of them. */
  lemma {:induction false} UnusedFeatureExists(used: set<nat>, n: nat)
    requires forall f | f in used :: f < n
    requires |used| < n
    ensures exists f :: 0 <= f < n && f !in used
  {
    if forall f | 0 <= f < n :: f in used {
      AllBelowCounted(used, n);
      assert false;
    }
  }

  lemma {:induction false} AllBelowCounted(used: set<nat>, n: nat)
    requires forall f | 0 <= f < n :: f in used
    ensures |used| >= n
  {
    if n > 0 {
      var rest := used - {n - 1};
      AllBelowCounted(rest, n - 1);
      assert used == rest + {n - 1};
    }
  }

  /** The edge by which a frontier item hangs under its parent: the parent's arena index
      and the feature value the item's records share. */
  datatype Link = Link(parent: nat, value: nat)

  /** A frontier item of the work stack: the features used on the way down, the records
      that reached it and the link to register on the parent once its node exists. */
  datatype Item = Item(used: set<nat>, subset: seq<Record>, link: Option<Link>)

  /** A frontier item the builder can process without panicking. */
  predicate ItemOk(p: Problem, it: Item)
    requires ValidTags(p.tags)
  {
    it.subset != [] &&
    (forall i | 0 <= i < |it.subset| :: ValidRecord(p, it.subset[i])) &&
    (forall f | f in it.used :: f < Features(p)) &&
    |it.used| <= Features(p)
  }

  /** The feature chosen to split the records of `it`. */
  function ChooseFeature(p: Problem, it: Item): (f: Option<nat>)
    requires ValidTags(p.tags) && ClassesBelow(it.subset, Classes(p))
  {
    FirstMin(Scores(p, it.subset), it.used, Features(p))
  }

  /** The distribution of the classes of an item's records. */
  function ItemDistribution(p: Problem, it: Item): (d: seq<nat>)
    requires ValidTags(p.tags) && ClassesBelow(it.subset, Classes(p))
    ensures |d| == Classes(p)
  {
    Distribution(it.subset, Classes(p))
  }

  /** The item gets a node: its records have one class, or a feature is left to split on.
      Otherwise `train` prints it as undecided and builds nothing for it. */
  predicate Decided(p: Problem, it: Item)
    requires ValidTags(p.tags) && ClassesBelow(it.subset, Classes(p))
  {
    Support(ItemDistribution(p, it)) == 1 || |it.used| < Features(p)
  }

  /** The node `train` appends for a decided item, before any of its paths exist. */
  predicate NodeFor(p: Problem, it: Item, node: Node)
    requires ValidTags(p.tags) && ItemOk(p, it)
  {
    var d := ItemDistribution(p, it);
    match node
    case Leaf(c) => Support(d) == 1 && c == it.subset[0].target
    case Branch(_, f, m) =>
      Support(d) != 1 && |it.used| < Features(p) && ChooseFeature(p, it) == Some(f) &&
      m == LastMax(d)
  }

  /** The frontier item pushed for value `v` of the branch at index `j` that splits
      `parent` on feature `f`. */
  function ChildItem(parent: Item, f: nat, j: nat, v: nat): Item {
    Item(parent.used + {f}, Filter(parent.subset, f, v), Some(Link(j, v)))
  }

  /** `it` is the child item for a value below `b` of the branch at `j` splitting
      `parent` on `f`, and it has records. */
  predicate ChildOf(it: Item, parent: Item, f: nat, j: nat, b: nat) {
    it.link.Some? && it.link.value.value < b &&
    it == ChildItem(parent, f, j, it.link.value.value) && it.subset != []
  }

  /** The values of the links of `items` strictly increase. */
  predicate Increasing(items: seq<Item>) {
    forall q, q' | 0 <= q < q' < |items| && items[q].link.Some? && items[q'].link.Some? ::
      items[q].link.value.value < items[q'].link.value.value
  }

  /** The items pushed for the values `0..b` of feature `f` that some record has, in
      increasing value order (the source drains a `HashMap`, in no particular order). */
  function Children(parent: Item, f: nat, j: nat, b: nat): (items: seq<Item>)
    ensures forall q | 0 <= q < |items| :: ChildOf(items[q], parent, f, j, b)
  {
    if b == 0 then []
    else
      var items := Children(parent, f, j, b - 1);
      var child := ChildItem(parent, f, j, b - 1);
      if child.subset != [] then
        var all := items + [child];
        assert ChildOf(child, parent, f, j, b);
        assert forall q | 0 <= q < |items| :: all[q] == items[q];
        all
      else items
  }

  lemma {:induction false} ChildrenIncreasing(parent: Item, f: nat, j: nat, b: nat)
    ensures Increasing(Children(parent, f, j, b))
  {
    if b > 0 {
      ChildrenIncreasing(parent, f, j, b - 1);
      var items := Children(parent, f, j, b - 1);
      assert forall q | 0 <= q < |items| :: ChildOf(items[q], parent, f, j, b - 1);
    }
  }

  /** Every value below `b` that some record of `parent` has gets a pushed item. */
  lemma {:induction false} ChildrenCover(parent: Item, f: nat, j: nat, b: nat)
    ensures forall v | 0 <= v < b && Filter(parent.subset, f, v) != [] ::
      Link(j, v) in LinksOf(Children(parent, f, j, b))
  {
    if b > 0 {
      ChildrenCover(parent, f, j, b - 1);
      var items := Children(parent, f, j, b - 1);
      var child := ChildItem(parent, f, j, b - 1);
      var all := Children(parent, f, j, b);
      var links := LinksOf(items);
      if child.subset != [] {
        assert all == items + [child];
        LinksOfAppend(items, [child]);
        assert [child][0] == child;
        assert LinksOf([child]) == {Link(j, b - 1)};
        assert LinksOf(all) == links + {Link(j, b - 1)};
      } else {
        assert all == items;
      }
      forall v | 0 <= v < b && Filter(parent.subset, f, v) != [] ensures Link(j, v) in LinksOf(all) {
        if v < b - 1 {
          assert Link(j, v) in links;
        }
      }
    }
  }

  /** The links of the items of a stack. */
  ghost function LinksOf(stack: seq<Item>): set<Link> {
    set q | 0 <= q < |stack| && stack[q].link.Some? :: stack[q].link.value
  }

  lemma LinksOfAppend(a: seq<Item>, c: seq<Item>)
    ensures LinksOf(a + c) == LinksOf(a) + LinksOf(c)
  {
    var ac := a + c;
    forall l | l in LinksOf(ac) ensures l in LinksOf(a) + LinksOf(c) {
      var q :| 0 <= q < |ac| && ac[q].link.Some? && ac[q].link.value == l;
      if q >= |a| {
        assert c[q - |a|] == ac[q];
      }
    }
    forall l | l in LinksOf(a) ensures l in LinksOf(ac) {
      var q :| 0 <= q < |a| && a[q].link.Some? && a[q].link.value == l;
      assert ac[q] == a[q];
    }
    forall l | l in LinksOf(c) ensures l in LinksOf(ac) {
      var q :| 0 <= q < |c| && c[q].link.Some? && c[q].link.value == l;
      assert ac[q + |a|] == c[q];
    }
  }

  /** `paths.insert(value, t)` on the parent named by `link`, if it is a branch. */
  function Register(nodes: seq<Node>, link: Link, t: nat): (linked: seq<Node>)
    requires link.parent < |nodes|
    ensures |linked| == |nodes|
    ensures forall i | 0 <= i < |nodes| && i != link.parent :: linked[i] == nodes[i]
    ensures nodes[link.parent].Leaf? ==> linked[link.parent] == nodes[link.parent]
    ensures nodes[link.parent].Branch? ==>
      linked[link.parent] == nodes[link.parent].(paths := nodes[link.parent].paths[link.value := t])
  {
    var n := nodes[link.parent];
    if n.Branch? then nodes[link.parent := n.(paths := n.paths[link.value := t])] else nodes
  }

  /** The state of the builder between two iterations of its loop: the arena, the frontier
      item each entry was built from, and the work stack. */
  datatype Builder = Builder(nodes: seq<Node>, origin: seq<Item>, stack: seq<Item>)

  function RootItem(p: Problem): Item {
    Item({}, p.data, None)
  }

  /** The paths of branch `j` lead to later entries built from the child items for their
      values. */
  ghost predicate PathsFit(nodes: seq<Node>, origin: seq<Item>, j: nat)
    requires j < |nodes| <= |origin|
  {
    nodes[j].Branch? ==>
      forall v | v in nodes[j].paths ::
        j < nodes[j].paths[v] < |nodes| &&
        origin[nodes[j].paths[v]] == ChildItem(origin[j], nodes[j].feature, j, v)
  }

  /** Entry `j` (other than the root) is registered under the parent named by its item. */
  ghost predicate LinkedBack(nodes: seq<Node>, origin: seq<Item>, j: nat)
    requires j < |nodes| <= |origin|
  {
    (origin[j].link.None? <==> j == 0) &&
    (origin[j].link.Some? ==>
      var Link(q, v) := origin[j].link.value;
      q < j && nodes[q].Branch? && v in nodes[q].paths && nodes[q].paths[v] == j)
  }

  /** Every decided non-empty group of branch `j` has a path or is `pending`. */
  ghost predicate Complete(p: Problem, nodes: seq<Node>, origin: seq<Item>, pending: set<Link>, j: nat)
    requires ValidTags(p.tags) && j < |nodes| <= |origin| && ItemOk(p, origin[j])
  {
    nodes[j].Branch? ==>
      forall v | Filter(origin[j].subset, nodes[j].feature, v) != [] ::
        Decided(p, ChildItem(origin[j], nodes[j].feature, j, v)) ==>
          v in nodes[j].paths || Link(j, v) in pending
  }

  /** A non-empty group of an item split on one of its unused features is processable. */
  lemma ChildOk(p: Problem, parent: Item, f: nat, j: nat, v: nat)
    requires ValidTags(p.tags) && ItemOk(p, parent)
    requires f < Features(p) && f !in parent.used && |parent.used| < Features(p)
    requires Filter(parent.subset, f, v) != []
    ensures ItemOk(p, ChildItem(parent, f, j, v))
  {
  }

  /** A stack item waiting for its parent branch, which exists and has no path yet for
      its value. */
  ghost predicate Waiting(nodes: seq<Node>, origin: seq<Item>, it: Item)
    requires |nodes| <= |origin|
  {
    it.link.Some? && it.subset != [] &&
    var Link(j, v) := it.link.value;
    j < |nodes| && nodes[j].Branch? && v !in nodes[j].paths &&
    it == ChildItem(origin[j], nodes[j].feature, j, v)
  }

  ghost predicate DistinctLinks(stack: seq<Item>) {
    forall q, q' | 0 <= q < q' < |stack| && stack[q].link.Some? && stack[q'].link.Some? ::
      stack[q].link != stack[q'].link
  }

  /** The arena with the popped item `it` registered on its parent, if it has one, as the
      next entry. */
  function Linked(nodes: seq<Node>, it: Item): seq<Node>
    requires it.link.Some? ==> it.link.value.parent < |nodes|
  {
    if it.link.Some? then Register(nodes, it.link.value, |nodes|) else nodes
  }

  /** Weight of a stack item in the termination measure of the loop: every record of it
      can still be pushed once per unused feature level. */
  function Weight(p: Problem, it: Item): nat
    requires ValidTags(p.tags)
  {
    Mul(|it.subset|, if |it.used| <= Features(p) then Features(p) + 1 - |it.used| else 0) + 1
  }

  /** `a * w` by repeated addition, which keeps the measure arguments linear. */
  function Mul(a: nat, w: nat): nat {
    if a == 0 then 0 else Mul(a - 1, w) + w
  }

  lemma {:induction false} MulAdd(a: nat, g: nat, w: nat)
    ensures Mul(a + g, w) == Mul(a, w) + Mul(g, w)
  {
    if g > 0 {
      MulAdd(a, g - 1, w);
    }
  }

  lemma {:induction false} MulPred(g: nat, w: nat)
    requires w >= 1
    ensures Mul(g, w) == Mul(g, w - 1) + g
  {
    if g > 0 {
      MulPred(g - 1, w);
    }
  }

  lemma {:induction false} MulMono(a: nat, c: nat, w: nat)
    requires a <= c
    ensures Mul(a, w) <= Mul(c, w)
    decreases c - a
  {
    if a < c {
      MulMono(a, c - 1, w);
    }
  }

  function Measure(p: Problem, stack: seq<Item>): nat
    requires ValidTags(p.tags)
  {
    if stack == [] then 0 else Measure(p, stack[..|stack| - 1]) + Weight(p, stack[|stack| - 1])
  }

  lemma {:induction false} MeasureAppend(p: Problem, a: seq<Item>, c: seq<Item>)
    requires ValidTags(p.tags)
    ensures Measure(p, a + c) == Measure(p, a) + Measure(p, c)
  {
    if c != [] {
      MeasureAppend(p, a, c[..|c| - 1]);
      assert (a + c)[..|a + c| - 1] == a + c[..|c| - 1];
    } else {
      assert a + c == a;
    }
  }

  lemma BelowGrows(s: seq<Record>, f: nat, b: nat)
    requires b > 0
    ensures |Below(s, f, b)| == |Below(s, f, b - 1)| + |Filter(s, f, b - 1)|
  {
    BelowSize(s, f, b - 1);
  }

  lemma {:induction false} BelowSize(s: seq<Record>, f: nat, b: nat)
    ensures |Below(s, f, b + 1)| == |Below(s, f, b)| + |Filter(s, f, b)|
    ensures |Below(s, f, b)| <= |s|
  {
    BelowStep(s, f, b);
    assert |multiset(Below(s, f, b + 1))| == |multiset(Below(s, f, b))| + |multiset(Filter(s, f, b))|;
    BelowShorter(s, f, b);
  }

  lemma {:induction false} BelowShorter(s: seq<Record>, f: nat, b: nat)
    ensures |Below(s, f, b)| <= |s|
  {
    if s != [] {
      BelowShorter(s[..|s| - 1], f, b);
    }
  }

  /** The children pushed for a split weigh less, together, than their parent. */
  lemma {:induction false} ChildrenMeasure(p: Problem, it: Item, f: nat, j: nat, b: nat)
    requires ValidTags(p.tags) && f !in it.used && |it.used| < Features(p)
    ensures Measure(p, Children(it, f, j, b)) <= Mul(|Below(it.subset, f, b)|, Features(p) + 1 - |it.used|)
  {
    if b > 0 {
      ChildrenMeasure(p, it, f, j, b - 1);
      MeasureGrows(p, it, f, j, b);
    } else {
      assert Children(it, f, j, b) == [];
    }
  }

  /** The bound of `ChildrenMeasure` carries over from `b - 1` values to `b`. */
  lemma MeasureGrows(p: Problem, it: Item, f: nat, j: nat, b: nat)
    requires ValidTags(p.tags) && f !in it.used && |it.used| < Features(p) && b > 0
    requires Measure(p, Children(it, f, j, b - 1)) <= Mul(|Below(it.subset, f, b - 1)|, Features(p) + 1 - |it.used|)
    ensures Measure(p, Children(it, f, j, b)) <= Mul(|Below(it.subset, f, b)|, Features(p) + 1 - |it.used|)
  {
    var m0, m1 := Measure(p, Children(it, f, j, b - 1)), Measure(p, Children(it, f, j, b));
    var b0, b1 := |Below(it.subset, f, b - 1)|, |Below(it.subset, f, b)|;
    var g := |Filter(it.subset, f, b - 1)|;
    var v, w := Features(p) - |it.used|, Features(p) + 1 - |it.used|;
    ChildrenStep(p, it, f, j, b);
    assert m1 == m0 + (if g > 0 then Mul(g, v) + 1 else 0);
    BelowGrows(it.subset, f, b);
    assert b1 == b0 + g;
    GrowArith(m0, m1, b0, b1, g, v, w);
  }

  /** The arithmetic of `MeasureGrows`: a group of `g` records adds at most `g` times the
      parent's per-record weight. */
  lemma GrowArith(m0: nat, m1: nat, b0: nat, b1: nat, g: nat, v: nat, w: nat)
    requires w == v + 1 && m0 <= Mul(b0, w) && b1 == b0 + g
    requires m1 == m0 + (if g > 0 then Mul(g, v) + 1 else 0)
    ensures m1 <= Mul(b1, w)
  {
    if g > 0 {
      StepArith(m0, b0, g, w, b1);
    } else {
      MulMono(b0, b1, w);
    }
  }

  /** The weight one more value's group adds to the children. */
  lemma ChildrenStep(p: Problem, it: Item, f: nat, j: nat, b: nat)
    requires ValidTags(p.tags) && f !in it.used && |it.used| < Features(p) && b > 0
    ensures Measure(p, Children(it, f, j, b)) == Measure(p, Children(it, f, j, b - 1)) +
      (if |Filter(it.subset, f, b - 1)| > 0 then Mul(|Filter(it.subset, f, b - 1)|, Features(p) - |it.used|) + 1 else 0)
  {
    var items := Children(it, f, j, b - 1);
    var child := ChildItem(it, f, j, b - 1);
    if child.subset != [] {
      assert Children(it, f, j, b) == items + [child];
      MeasureAppend(p, items, [child]);
      MeasureSingle(p, child);
      assert |child.used| == |it.used| + 1;
      WeightIs(p, child, Features(p) - |it.used|);
    }
  }

  lemma MeasureSingle(p: Problem, it: Item)
    requires ValidTags(p.tags)
    ensures Measure(p, [it]) == Weight(p, it)
  {
    assert [it][..0] == [];
  }

  lemma WeightIs(p: Problem, it: Item, w: nat)
    requires ValidTags(p.tags) && |it.used| <= Features(p) && w == Features(p) + 1 - |it.used|
    ensures Weight(p, it) == Mul(|it.subset|, w) + 1
  {
  }

  /** No value above the largest observed one selects any record. */
  lemma FilterAboveMax(s: seq<Record>, f: nat, v: nat)
    requires v > MaxValue(s, f)
    ensures Filter(s, f, v) == []
  {
  }

  /** The part of the loop invariant of `train` about the arena built so far. */
  ghost predicate ArenaInv(p: Problem, nodes: seq<Node>, origin: seq<Item>) {
    ValidProblem(p) &&
    |origin| == |nodes| &&
    Ordered(nodes) &&
    (forall j | 0 <= j < |nodes| :: ItemOk(p, origin[j]) && NodeFor(p, origin[j], nodes[j])) &&
    (forall j | 0 <= j < |nodes| :: PathsFit(nodes, origin, j) && LinkedBack(nodes, origin, j)) &&
    (|nodes| > 0 ==> origin[0] == RootItem(p))
  }

  /** The part about the work stack: every item is processable and waits for a distinct
      path of an existing branch, except the root item before anything is built. */
  ghost predicate StackInv(p: Problem, nodes: seq<Node>, origin: seq<Item>, stack: seq<Item>)
    requires ArenaInv(p, nodes, origin)
  {
    (forall q | 0 <= q < |stack| :: ItemOk(p, stack[q])) &&
    DistinctLinks(stack) &&
    (|nodes| == 0 ==> stack == [RootItem(p)] || (stack == [] && !Decided(p, RootItem(p)))) &&
    (|nodes| > 0 ==> forall q | 0 <= q < |stack| :: Waiting(nodes, origin, stack[q]))
  }

  /** The part linking both: no decided group of a branch is forgotten. */
  ghost predicate CompleteInv(p: Problem, nodes: seq<Node>, origin: seq<Item>, pending: set<Link>)
    requires ArenaInv(p, nodes, origin)
  {
    forall j | 0 <= j < |nodes| :: Complete(p, nodes, origin, pending, j)
  }

  /** The loop invariant of `train`. */
  ghost predicate Inv(p: Problem, b: Builder) {
    ArenaInv(p, b.nodes, b.origin) &&
    StackInv(p, b.nodes, b.origin, b.stack) &&
    CompleteInv(p, b.nodes, b.origin, LinksOf(b.stack))
  }

  /** The top of the stack can be processed. */
  lemma TopOk(p: Problem, b: Builder)
    requires Inv(p, b) && b.stack != []
    ensures ItemOk(p, b.stack[|b.stack| - 1])
    ensures b.stack[|b.stack| - 1].link.Some? ==> b.stack[|b.stack| - 1].link.value.parent < |b.nodes|
    ensures |b.nodes| == 0 ==> b.stack[|b.stack| - 1] == RootItem(p)
  {
    var it := b.stack[|b.stack| - 1];
    if |b.nodes| > 0 {
      assert Waiting(b.nodes, b.origin, it);
    }
  }

  /** Popping an undecided item keeps the invariant. */
  lemma UndecidedKeepsInv(p: Problem, b: Builder, rest: seq<Item>, it: Item)
    requires Inv(p, b) && b.stack == rest + [it]
    requires ClassesBelow(it.subset, Classes(p)) && !Decided(p, it)
    ensures Inv(p, Builder(b.nodes, b.origin, rest))
  {
    PopKeepsStack(p, b.nodes, b.origin, rest, it);
    LinksOfAppend(rest, [it]);
    assert [it][0] == it;
    if |b.nodes| == 0 {
      assert rest == [];
    } else {
      assert b.stack[|b.stack| - 1] == it;
      assert Waiting(b.nodes, b.origin, it);
      var l := it.link.value;
      assert LinksOf(b.stack) - {l} <= LinksOf(rest);
      CompleteDrop(p, b.nodes, b.origin, LinksOf(b.stack), l);
      CompleteGrow(p, b.nodes, b.origin, LinksOf(b.stack) - {l}, LinksOf(rest));
    }
  }

  /** Removing the top item keeps the stack part of the invariant, provided an empty
      arena leaves an undecided root behind. */
  lemma PopKeepsStack(p: Problem, nodes: seq<Node>, origin: seq<Item>, rest: seq<Item>, it: Item)
    requires ArenaInv(p, nodes, origin) && StackInv(p, nodes, origin, rest + [it])
    requires ClassesBelow(it.subset, Classes(p)) && (|nodes| == 0 ==> !Decided(p, it))
    ensures StackInv(p, nodes, origin, rest)
  {
    var stack := rest + [it];
    assert forall q | 0 <= q < |rest| :: rest[q] == stack[q];
    if |nodes| == 0 {
      assert stack[|stack| - 1] == it;
      assert stack == [RootItem(p)] && rest == [];
    }
  }

  /** A link whose group is undecided is never needed as pending. */
  lemma CompleteDrop(p: Problem, nodes: seq<Node>, origin: seq<Item>, pending: set<Link>, l: Link)
    requires ArenaInv(p, nodes, origin) && CompleteInv(p, nodes, origin, pending)
    requires l.parent < |nodes| && nodes[l.parent].Branch?
    requires !Decided(p, ChildItem(origin[l.parent], nodes[l.parent].feature, l.parent, l.value))
    ensures CompleteInv(p, nodes, origin, pending - {l})
  {
    forall j | 0 <= j < |nodes| ensures Complete(p, nodes, origin, pending - {l}, j) {
      assert Complete(p, nodes, origin, pending, j);
    }
  }

  /** More pending links never break completeness. */
  lemma CompleteGrow(p: Problem, nodes: seq<Node>, origin: seq<Item>, pending: set<Link>, more: set<Link>)
    requires ArenaInv(p, nodes, origin) && CompleteInv(p, nodes, origin, pending) && pending <= more
    ensures CompleteInv(p, nodes, origin, more)
  {
    forall j | 0 <= j < |nodes| ensures Complete(p, nodes, origin, more, j) {
      assert Complete(p, nodes, origin, pending, j);
    }
  }

  lemma StepArith(m: nat, below: nat, g: nat, w: nat, total: nat)
    requires w >= 1 && g >= 1 && m <= Mul(below, w) && total == below + g
    ensures m + (Mul(g, w - 1) + 1) <= Mul(total, w)
  {
    MulAdd(below, g, w);
    MulPred(g, w);
  }
  /** The state right after popping a decided item `it` off `rest + [it]`. */
  ghost predicate Popped(p: Problem, nodes: seq<Node>, origin: seq<Item>, rest: seq<Item>, it: Item) {
    ArenaInv(p, nodes, origin) &&
    StackInv(p, nodes, origin, rest + [it]) &&
    CompleteInv(p, nodes, origin, LinksOf(rest + [it])) &&
    ItemOk(p, it) && Decided(p, it) &&
    (it.link.Some? ==> it.link.value.parent < |nodes|)
  }

  /** `node` is what `train` appends for `it` at index `n`, and `kids` what it pushes. */
  ghost predicate Built(p: Problem, it: Item, node: Node, kids: seq<Item>, n: nat)
    requires ValidTags(p.tags) && ItemOk(p, it)
  {
    NodeFor(p, it, node) &&
    (node.Leaf? ==> kids == []) &&
    (node.Branch? ==>
      node.paths == map[] && kids == Children(it, node.feature, n, MaxValue(it.subset, node.feature) + 1))
  }

  /** The popped item of a non-empty arena waits on an existing branch; the popped item of
      an empty one is the root and nothing else is left. */
  lemma PoppedTop(p: Problem, nodes: seq<Node>, origin: seq<Item>, rest: seq<Item>, it: Item)
    requires Popped(p, nodes, origin, rest, it)
    ensures |nodes| > 0 ==> Waiting(nodes, origin, it)
    ensures |nodes| == 0 ==> it == RootItem(p) && rest == []
    ensures forall q | 0 <= q < |rest| :: ItemOk(p, rest[q])
    ensures |nodes| > 0 ==> forall q | 0 <= q < |rest| :: Waiting(nodes, origin, rest[q]) && rest[q].link != it.link
    ensures it.link.Some? ==> LinksOf(rest + [it]) == LinksOf(rest) + {it.link.value}
    ensures it.link.None? ==> LinksOf(rest + [it]) == LinksOf(rest)
  {
    var stack := rest + [it];
    assert stack[|stack| - 1] == it;
    assert forall q | 0 <= q < |rest| :: rest[q] == stack[q];
    LinksOfAppend(rest, [it]);
    assert [it][0] == it;
    if it.link.Some? {
      assert LinksOf([it]) == {it.link.value};
    } else {
      assert LinksOf([it]) == {};
    }
  }

  /** The popped item can hang under the arena: it is the root of an empty arena, or it
      waits on a branch of a non-empty one. */
  ghost predicate Attachable(nodes: seq<Node>, origin: seq<Item>, it: Item)
    requires |nodes| <= |origin|
  {
    (it.link.None? <==> |nodes| == 0) && (it.link.Some? ==> Waiting(nodes, origin, it))
  }

  /** Registering a waiting item adds exactly its path and changes nothing else. */
  lemma LinkedShape(nodes: seq<Node>, origin: seq<Item>, it: Item)
    requires |nodes| <= |origin| && Attachable(nodes, origin, it)
    ensures |Linked(nodes, it)| == |nodes|
    ensures forall j | 0 <= j < |nodes| ::
      Linked(nodes, it)[j].Branch? == nodes[j].Branch? &&
      (nodes[j].Leaf? ==> Linked(nodes, it)[j] == nodes[j]) &&
      (nodes[j].Branch? ==>
        Linked(nodes, it)[j].feature == nodes[j].feature &&
        Linked(nodes, it)[j].majority == nodes[j].majority &&
        nodes[j].paths.Keys <= Linked(nodes, it)[j].paths.Keys &&
        (forall v | v in nodes[j].paths :: Linked(nodes, it)[j].paths[v] == nodes[j].paths[v]) &&
        (forall v | v in Linked(nodes, it)[j].paths && v !in nodes[j].paths ::
          it.link == Some(Link(j, v)) && Linked(nodes, it)[j].paths[v] == |nodes|))
    ensures it.link.Some? ==>
      var Link(q, v) := it.link.value;
      v in Linked(nodes, it)[q].paths && Linked(nodes, it)[q].paths[v] == |nodes|
  {
  }

  /** Appending keeps every entry's item and node in agreement. */
  lemma AppendNodeFor(p: Problem, nodes: seq<Node>, origin: seq<Item>, it: Item, node: Node)
    requires ArenaInv(p, nodes, origin) && Attachable(nodes, origin, it)
    requires ItemOk(p, it) && NodeFor(p, it, node)
    ensures forall j | 0 <= j < |nodes| + 1 ::
      ItemOk(p, (origin + [it])[j]) && NodeFor(p, (origin + [it])[j], (Linked(nodes, it) + [node])[j])
  {
    LinkedShape(nodes, origin, it);
    var nodes', origin' := Linked(nodes, it) + [node], origin + [it];
    forall j | 0 <= j < |nodes'| ensures ItemOk(p, origin'[j]) && NodeFor(p, origin'[j], nodes'[j]) {
      if j < |nodes| {
        KeepsNodeFor(p, nodes, origin, it, node, j);
      } else {
        assert origin'[j] == it && nodes'[j] == node;
      }
    }
  }

  /** An older entry still fits its item after a path is registered and a node appended. */
  lemma KeepsNodeFor(p: Problem, nodes: seq<Node>, origin: seq<Item>, it: Item, node: Node, j: nat)
    requires ArenaInv(p, nodes, origin) && Attachable(nodes, origin, it) && j < |nodes|
    ensures ItemOk(p, (origin + [it])[j]) && NodeFor(p, (origin + [it])[j], (Linked(nodes, it) + [node])[j])
  {
    LinkedShape(nodes, origin, it);
    var nodes', origin' := Linked(nodes, it) + [node], origin + [it];
    assert origin'[j] == origin[j] && nodes'[j] == Linked(nodes, it)[j];
    assert ItemOk(p, origin[j]) && NodeFor(p, origin[j], nodes[j]);
    NodeForIgnoresPaths(p, origin[j], nodes[j], nodes'[j]);
  }

  /** Whether a node fits an item does not depend on the node's paths. */
  lemma NodeForIgnoresPaths(p: Problem, it: Item, a: Node, b: Node)
    requires ValidTags(p.tags) && ItemOk(p, it) && NodeFor(p, it, a)
    requires b.Branch? == a.Branch? && (a.Leaf? ==> b == a)
    requires a.Branch? ==> b.feature == a.feature && b.majority == a.majority
    ensures NodeFor(p, it, b)
  {
  }

  /** Appending keeps the arena ordered and every path pointing at its child's entry. */
  lemma AppendPaths(nodes: seq<Node>, origin: seq<Item>, it: Item, node: Node)
    requires |origin| == |nodes| && Ordered(nodes) && Attachable(nodes, origin, it)
    requires forall j | 0 <= j < |nodes| :: PathsFit(nodes, origin, j)
    requires node.Branch? ==> node.paths == map[]
    ensures Ordered(Linked(nodes, it) + [node])
    ensures forall j | 0 <= j < |nodes| + 1 :: PathsFit(Linked(nodes, it) + [node], origin + [it], j)
  {
    LinkedShape(nodes, origin, it);
    var n := |nodes|;
    var nodes', origin' := Linked(nodes, it) + [node], origin + [it];
    assert forall j | 0 <= j < n :: nodes'[j] == Linked(nodes, it)[j] && origin'[j] == origin[j];
    forall j, v | 0 <= j < |nodes'| && nodes'[j].Branch? && v in nodes'[j].paths
      ensures j < nodes'[j].paths[v] < |nodes'|
      ensures origin'[nodes'[j].paths[v]] == ChildItem(origin'[j], nodes'[j].feature, j, v)
    {
      assert j < n;
      assert PathsFit(nodes, origin, j);
    }
  }

  /** Appending keeps every entry registered under its parent. */
  lemma AppendLinkedBack(nodes: seq<Node>, origin: seq<Item>, it: Item, node: Node)
    requires |origin| == |nodes| && Attachable(nodes, origin, it)
    requires forall j | 0 <= j < |nodes| :: LinkedBack(nodes, origin, j)
    ensures forall j | 0 <= j < |nodes| + 1 :: LinkedBack(Linked(nodes, it) + [node], origin + [it], j)
  {
    LinkedShape(nodes, origin, it);
    var n := |nodes|;
    var nodes', origin' := Linked(nodes, it) + [node], origin + [it];
    assert forall j | 0 <= j < n :: nodes'[j] == Linked(nodes, it)[j] && origin'[j] == origin[j];
    forall j | 0 <= j < |nodes'| ensures LinkedBack(nodes', origin', j) {
      if j < n {
        assert LinkedBack(nodes, origin, j);
        if origin[j].link.Some? {
          var Link(q, v) := origin[j].link.value;
          assert nodes'[q].paths[v] == nodes[q].paths[v];
        }
      } else {
        assert origin'[j] == it;
        if it.link.Some? {
          var Link(q, v) := it.link.value;
          assert q < n && nodes[q].Branch?;
          assert nodes'[q].paths[v] == n;
        }
      }
    }
  }

  /** Appending the node of a decided item keeps the arena part of the invariant. */
  lemma AppendArena(p: Problem, nodes: seq<Node>, origin: seq<Item>, rest: seq<Item>, it: Item, node: Node, kids: seq<Item>)
    requires Popped(p, nodes, origin, rest, it) && Built(p, it, node, kids, |nodes|)
    ensures ArenaInv(p, Linked(nodes, it) + [node], origin + [it])
  {
    PoppedTop(p, nodes, origin, rest, it);
    assert Attachable(nodes, origin, it);
    AppendNodeFor(p, nodes, origin, it, node);
    AppendPaths(nodes, origin, it, node);
    AppendLinkedBack(nodes, origin, it, node);
  }

  /** The items pushed for a new branch at index `n` are processable, hang under it, and
      have distinct values. */
  lemma KidsOk(p: Problem, it: Item, node: Node, kids: seq<Item>, n: nat)
    requires ValidTags(p.tags) && ItemOk(p, it) && Built(p, it, node, kids, n)
    ensures forall q | 0 <= q < |kids| ::
      ItemOk(p, kids[q]) && node.Branch? && kids[q].subset != [] &&
      kids[q].link.Some? && kids[q].link.value.parent == n &&
      kids[q] == ChildItem(it, node.feature, n, kids[q].link.value.value)
    ensures Increasing(kids)
  {
    if node.Branch? {
      var f := node.feature;
      ChildrenIncreasing(it, f, n, MaxValue(it.subset, f) + 1);
      forall q | 0 <= q < |kids| ensures ItemOk(p, kids[q]) {
        ChildOk(p, it, f, n, kids[q].link.value.value);
      }
    }
  }

  /** Appending the node of a decided item and pushing its groups keeps the stack part of
      the invariant. */
  lemma AppendStack(p: Problem, nodes: seq<Node>, origin: seq<Item>, rest: seq<Item>, it: Item, node: Node, kids: seq<Item>)
    requires Popped(p, nodes, origin, rest, it) && Built(p, it, node, kids, |nodes|)
    requires ArenaInv(p, Linked(nodes, it) + [node], origin + [it])
    ensures StackInv(p, Linked(nodes, it) + [node], origin + [it], rest + kids)
  {
    PoppedTop(p, nodes, origin, rest, it);
    KidsOk(p, it, node, kids, |nodes|);
    var nodes', origin', stack' := Linked(nodes, it) + [node], origin + [it], rest + kids;
    OldWaiting(p, nodes, origin, rest, it, node);
    KidsWaiting(p, nodes, origin, it, node, kids);
    forall q | 0 <= q < |stack'| ensures ItemOk(p, stack'[q]) && Waiting(nodes', origin', stack'[q]) {
      if q < |rest| {
        assert stack'[q] == rest[q];
      } else {
        assert stack'[q] == kids[q - |rest|];
      }
    }
    AppendDistinct(p, nodes, origin, rest, it, node, kids);
  }

  /** The items left on the stack still wait on their parents after the append. */
  lemma OldWaiting(p: Problem, nodes: seq<Node>, origin: seq<Item>, rest: seq<Item>, it: Item, node: Node)
    requires Popped(p, nodes, origin, rest, it)
    ensures forall q | 0 <= q < |rest| :: Waiting(Linked(nodes, it) + [node], origin + [it], rest[q])
  {
    PoppedTop(p, nodes, origin, rest, it);
    assert Attachable(nodes, origin, it);
    forall q | 0 <= q < |rest| ensures Waiting(Linked(nodes, it) + [node], origin + [it], rest[q]) {
      StillWaiting(nodes, origin, it, node, rest[q]);
    }
  }

  /** An item waiting on another path than the one registered keeps waiting. */
  lemma StillWaiting(nodes: seq<Node>, origin: seq<Item>, it: Item, node: Node, x: Item)
    requires |nodes| == |origin| && Attachable(nodes, origin, it)
    requires Waiting(nodes, origin, x) && x.link != it.link
    ensures Waiting(Linked(nodes, it) + [node], origin + [it], x)
  {
    LinkedShape(nodes, origin, it);
    var nodes', origin' := Linked(nodes, it) + [node], origin + [it];
    var Link(j, v) := x.link.value;
    assert nodes'[j] == Linked(nodes, it)[j] && origin'[j] == origin[j];
    assert v !in nodes'[j].paths;
  }

  /** The groups pushed for the new entry wait on it. */
  lemma KidsWaiting(p: Problem, nodes: seq<Node>, origin: seq<Item>, it: Item, node: Node, kids: seq<Item>)
    requires ValidTags(p.tags) && ItemOk(p, it) && Built(p, it, node, kids, |nodes|) && |nodes| == |origin|
    requires it.link.Some? ==> it.link.value.parent < |nodes|
    ensures forall q | 0 <= q < |kids| :: Waiting(Linked(nodes, it) + [node], origin + [it], kids[q])
  {
    KidsOk(p, it, node, kids, |nodes|);
    var n := |nodes|;
    var nodes', origin' := Linked(nodes, it) + [node], origin + [it];
    assert nodes'[n] == node && origin'[n] == it;
  }

  /** Pushing the groups of a new branch keeps the links of the stack distinct: the old
      items hang under older entries, the new ones under the new branch, by value. */
  lemma AppendDistinct(p: Problem, nodes: seq<Node>, origin: seq<Item>, rest: seq<Item>, it: Item, node: Node, kids: seq<Item>)
    requires Popped(p, nodes, origin, rest, it) && Built(p, it, node, kids, |nodes|)
    ensures DistinctLinks(rest + kids)
  {
    PoppedTop(p, nodes, origin, rest, it);
    KidsOk(p, it, node, kids, |nodes|);
    DistinctInit(rest, it);
    forall q | 0 <= q < |rest| ensures rest[q].link.Some? && rest[q].link.value.parent < |nodes| {
      assert Waiting(nodes, origin, rest[q]);
    }
    DistinctConcat(rest, kids, |nodes|);
  }

  lemma DistinctInit(rest: seq<Item>, it: Item)
    requires DistinctLinks(rest + [it])
    ensures DistinctLinks(rest)
  {
    assert forall q | 0 <= q < |rest| :: (rest + [it])[q] == rest[q];
  }

  /** Items hanging under older entries, with distinct links, followed by items hanging
      under entry `n` with increasing values, have distinct links. */
  lemma DistinctConcat(a: seq<Item>, c: seq<Item>, n: nat)
    requires DistinctLinks(a) && Increasing(c)
    requires forall q | 0 <= q < |a| :: a[q].link.Some? && a[q].link.value.parent < n
    requires forall q | 0 <= q < |c| :: c[q].link.Some? && c[q].link.value.parent == n
    ensures DistinctLinks(a + c)
  {
    var s := a + c;
    forall q, q' | 0 <= q < q' < |s| && s[q].link.Some? && s[q'].link.Some?
      ensures s[q].link != s[q'].link
    {
      if q' < |a| {
        assert s[q] == a[q] && s[q'] == a[q'];
      } else if q >= |a| {
        assert s[q] == c[q - |a|] && s[q'] == c[q' - |a|];
      } else {
        assert s[q] == a[q] && s[q'] == c[q' - |a|];
      }
    }
  }

  /** Appending the node of a decided item and pushing its groups keeps every decided
      group of every branch either linked or pending. */
  lemma AppendComplete(p: Problem, nodes: seq<Node>, origin: seq<Item>, rest: seq<Item>, it: Item, node: Node, kids: seq<Item>)
    requires Popped(p, nodes, origin, rest, it) && Built(p, it, node, kids, |nodes|)
    requires ArenaInv(p, Linked(nodes, it) + [node], origin + [it])
    ensures CompleteInv(p, Linked(nodes, it) + [node], origin + [it], LinksOf(rest + kids))
  {
    PoppedTop(p, nodes, origin, rest, it);
    LinksOfAppend(rest, kids);
    var pending := LinksOf(rest + kids);
    var nodes', origin' := Linked(nodes, it) + [node], origin + [it];
    OldBranchesComplete(p, nodes, origin, rest, it, node, pending);
    NewBranchComplete(p, nodes, origin, it, node, kids, pending);
    assert |nodes'| == |nodes| + 1;
    forall j | 0 <= j < |nodes'| ensures Complete(p, nodes', origin', pending, j) {
      if j < |nodes| {
        assert Complete(p, nodes', origin', pending, j);
      } else {
        assert j == |nodes|;
      }
    }
  }

  lemma OldBranchesComplete(p: Problem, nodes: seq<Node>, origin: seq<Item>, rest: seq<Item>, it: Item, node: Node, pending: set<Link>)
    requires Popped(p, nodes, origin, rest, it) && LinksOf(rest) <= pending
    requires ArenaInv(p, Linked(nodes, it) + [node], origin + [it])
    ensures forall j | 0 <= j < |nodes| :: Complete(p, Linked(nodes, it) + [node], origin + [it], pending, j)
  {
    PoppedTop(p, nodes, origin, rest, it);
    assert Attachable(nodes, origin, it);
    LinkedShape(nodes, origin, it);
    var n := |nodes|;
    var nodes', origin' := Linked(nodes, it) + [node], origin + [it];
    var before := LinksOf(rest + [it]);
    forall j | 0 <= j < n ensures Complete(p, nodes', origin', pending, j) {
      assert nodes'[j] == Linked(nodes, it)[j] && origin'[j] == origin[j];
      assert Complete(p, nodes, origin, before, j);
      if nodes[j].Branch? {
        forall v | v in nodes[j].paths || Link(j, v) in before ensures v in nodes'[j].paths || Link(j, v) in pending {
          if v !in nodes[j].paths && Some(Link(j, v)) != it.link {
            assert Link(j, v) in LinksOf(rest);
          }
        }
      }
      CompleteMoves(p, nodes, origin, before, nodes', origin', pending, j);
    }
  }

  /** A branch stays complete when its node keeps its kind and feature and every value it
      had linked or pending is still linked or pending. */
  lemma CompleteMoves(p: Problem, nodes: seq<Node>, origin: seq<Item>, pending: set<Link>,
                      nodes': seq<Node>, origin': seq<Item>, pending': set<Link>, j: nat)
    requires ValidTags(p.tags) && j < |nodes| <= |origin| && j < |nodes'| <= |origin'|
    requires ItemOk(p, origin[j]) && origin'[j] == origin[j]
    requires Complete(p, nodes, origin, pending, j)
    requires nodes'[j].Branch? == nodes[j].Branch?
    requires nodes[j].Branch? ==> nodes'[j].feature == nodes[j].feature
    requires nodes[j].Branch? ==>
      forall v | v in nodes[j].paths || Link(j, v) in pending :: v in nodes'[j].paths || Link(j, v) in pending'
    ensures Complete(p, nodes', origin', pending', j)
  {
  }

  /** Every non-empty group of a split has its item among the pushed ones. */
  lemma KidsCover(it: Item, f: nat, n: nat)
    ensures forall v | Filter(it.subset, f, v) != [] ::
      Link(n, v) in LinksOf(Children(it, f, n, MaxValue(it.subset, f) + 1))
  {
    var b := MaxValue(it.subset, f) + 1;
    ChildrenCover(it, f, n, b);
    forall v: nat | Filter(it.subset, f, v) != [] ensures v < b {
      if v >= b {
        FilterAboveMax(it.subset, f, v);
      }
    }
  }

  lemma NewBranchComplete(p: Problem, nodes: seq<Node>, origin: seq<Item>, it: Item, node: Node, kids: seq<Item>, pending: set<Link>)
    requires ValidTags(p.tags) && |origin| == |nodes| && ItemOk(p, it) && Built(p, it, node, kids, |nodes|)
    requires it.link.Some? ==> it.link.value.parent < |nodes|
    requires LinksOf(kids) <= pending
    ensures Complete(p, Linked(nodes, it) + [node], origin + [it], pending, |nodes|)
  {
    var n := |nodes|;
    var nodes', origin' := Linked(nodes, it) + [node], origin + [it];
    assert nodes'[n] == node && origin'[n] == it;
    if node.Branch? {
      KidsCover(it, node.feature, n);
    }
  }

  /** The groups pushed for a split weigh less, together, than the item split. */
  lemma AppendMeasure(p: Problem, rest: seq<Item>, it: Item, node: Node, kids: seq<Item>, n: nat)
    requires ValidTags(p.tags) && ItemOk(p, it) && Built(p, it, node, kids, n)
    ensures Measure(p, rest + kids) < Measure(p, rest + [it])
  {
    MeasureAppend(p, rest, kids);
    MeasureAppend(p, rest, [it]);
    MeasureSingle(p, it);
    KidsLighter(p, it, node, kids, n);
  }

  lemma KidsLighter(p: Problem, it: Item, node: Node, kids: seq<Item>, n: nat)
    requires ValidTags(p.tags) && ItemOk(p, it) && Built(p, it, node, kids, n)
    ensures Measure(p, kids) < Weight(p, it)
  {
    var w := Features(p) + 1 - |it.used|;
    WeightIs(p, it, w);
    if node.Branch? {
      var f := node.feature;
      var b := MaxValue(it.subset, f) + 1;
      ChildrenMeasure(p, it, f, n, b);
      BelowShorter(it.subset, f, b);
      MulMono(|Below(it.subset, f, b)|, |it.subset|, w);
    } else {
      assert kids == [];
    }
  }

  lemma MeasurePop(p: Problem, rest: seq<Item>, it: Item)
    requires ValidTags(p.tags)
    ensures Measure(p, rest) < Measure(p, rest + [it])
  {
    assert (rest + [it])[..|rest|] == rest;
  }

  /** Popping a decided item, appending its node and pushing its groups keeps the
      invariant and lowers the measure. */
  lemma DecidedKeepsInv(p: Problem, b: Builder, rest: seq<Item>, it: Item, node: Node, kids: seq<Item>)
    requires Inv(p, b) && b.stack == rest + [it] && ItemOk(p, it) && Decided(p, it)
    requires it.link.Some? ==> it.link.value.parent < |b.nodes|
    requires Built(p, it, node, kids, |b.nodes|)
    ensures Inv(p, Builder(Linked(b.nodes, it) + [node], b.origin + [it], rest + kids))
    ensures Measure(p, rest + kids) < Measure(p, b.stack)
  {
    assert Popped(p, b.nodes, b.origin, rest, it);
    AppendArena(p, b.nodes, b.origin, rest, it, node, kids);
    AppendStack(p, b.nodes, b.origin, rest, it, node, kids);
    AppendComplete(p, b.nodes, b.origin, rest, it, node, kids);
    AppendMeasure(p, rest, it, node, kids, |b.nodes|);
  }

  /** An entry's node exists only for a decided item. */
  lemma NodeForDecided(p: Problem, it: Item, node: Node)
    requires ValidTags(p.tags) && ItemOk(p, it) && NodeFor(p, it, node)
    ensures Decided(p, it)
  {
  }

  /** What `train` leaves behind: an arena built from the root item whose every branch has
      a path for exactly the values whose group is non-empty and decided. */
  ghost predicate Trained(p: Problem, nodes: seq<Node>, origin: seq<Item>) {
    ArenaInv(p, nodes, origin) && |nodes| > 0 &&
    forall j, v | 0 <= j < |nodes| && nodes[j].Branch? ::
      v in nodes[j].paths <==>
        Filter(origin[j].subset, nodes[j].feature, v) != [] &&
        Decided(p, ChildItem(origin[j], nodes[j].feature, j, v))
  }

  /** `train`: process the work stack until it is empty, starting from the item holding
      every record. An undecided root leaves the arena empty, and the accuracy pass at the
      end of the first iteration then indexes entry 0 of it and panics (`None`). */
  method Train(p: Problem) returns (arena: Option<seq<Node>>, ghost origin: seq<Item>)
    requires ValidProblem(p)
    ensures arena.None? <==> !Decided(p, RootItem(p))
    ensures arena.Some? ==> Trained(p, arena.value, origin)
  {
    var nodes: seq<Node> := [];
    origin := [];
    var stack := [RootItem(p)];
    InitialInv(p);
    while stack != []
      invariant Inv(p, Builder(nodes, origin, stack))
      decreases Measure(p, stack)
    {
      nodes, origin, stack := TrainStep(p, nodes, origin, stack);
    }
    if nodes == [] {
      return None, origin;
    }
    FinishedIsTrained(p, nodes, origin);
    arena := Some(nodes);
  }

  lemma InitialInv(p: Problem)
    requires ValidProblem(p)
    ensures Inv(p, Builder([], [], [RootItem(p)]))
  {
  }

  /** One iteration of the loop of `train`: pop an item; if it is decided, register its
      link on the parent and append its node (a leaf for a single class, otherwise a
      branch on the chosen feature whose non-empty groups are pushed); an undecided item
      is dropped. */
  method TrainStep(p: Problem, nodes: seq<Node>, ghost origin: seq<Item>, stack: seq<Item>)
    returns (nodes': seq<Node>, ghost origin': seq<Item>, stack': seq<Item>)
    requires Inv(p, Builder(nodes, origin, stack)) && stack != []
    ensures Inv(p, Builder(nodes', origin', stack'))
    ensures Measure(p, stack') < Measure(p, stack)
  {
    TopOk(p, Builder(nodes, origin, stack));
    var it := stack[|stack| - 1];
    var rest := stack[..|stack| - 1];
    PopSplits(stack);
    var d := Distribution(it.subset, Classes(p));
    if Support(d) == 1 {
      var node := Leaf(it.subset[0].target);
      LeafStep(p, Builder(nodes, origin, stack), rest, it);
      nodes', origin', stack' := Linked(nodes, it) + [node], origin + [it], rest;
    } else if |it.used| < Features(p) {
      var node, kids := BranchFor(p, it, |nodes|);
      BranchStep(p, nodes, origin, stack, rest, it, ChooseFeature(p, it).value, node, kids);
      nodes', origin', stack' := Linked(nodes, it) + [node], origin + [it], rest + kids;
    } else {
      UndecidedStep(p, Builder(nodes, origin, stack), rest, it);
      nodes', origin', stack' := nodes, origin, rest;
    }
  }

  lemma PopSplits(stack: seq<Item>)
    requires stack != []
    ensures stack == stack[..|stack| - 1] + [stack[|stack| - 1]]
  {
  }

  /** An item with a feature left to split on gets a feature. */
  lemma ChooseSome(p: Problem, it: Item)
    requires ValidTags(p.tags) && ItemOk(p, it) && |it.used| < Features(p)
    ensures ChooseFeature(p, it).Some?
  {
    UnusedFeatureExists(it.used, Features(p));
  }

  /** A pure item becomes a leaf of its class and nothing is pushed. */
  lemma LeafStep(p: Problem, b: Builder, rest: seq<Item>, it: Item)
    requires Inv(p, b) && b.stack == rest + [it] && ItemOk(p, it)
    requires it.link.Some? ==> it.link.value.parent < |b.nodes|
    requires Support(Distribution(it.subset, Classes(p))) == 1
    ensures Inv(p, Builder(Linked(b.nodes, it) + [Leaf(it.subset[0].target)], b.origin + [it], rest))
    ensures Measure(p, rest) < Measure(p, b.stack)
  {
    DecidedKeepsInv(p, b, rest, it, Leaf(it.subset[0].target), []);
    assert rest + [] == rest;
  }

  /** Packs the split of a mixed item for `TrainStep`; `SplitChoice` and `SplitGroups`
      say what it is. */
  method BranchFor(p: Problem, it: Item, n: nat) returns (node: Node, kids: seq<Item>)
    requires ValidTags(p.tags) && ItemOk(p, it) && |it.used| < Features(p)
    ensures ChooseFeature(p, it).Some?
    ensures node == Branch(map[], ChooseFeature(p, it).value, LastMax(Distribution(it.subset, Classes(p))))
    ensures kids == Children(it, node.feature, n, MaxValue(it.subset, node.feature) + 1)
  {
    ChooseSome(p, it);
    var f := ChooseFeature(p, it).value;
    node := Branch(map[], f, LastMax(Distribution(it.subset, Classes(p))));
    kids := Children(it, f, n, MaxValue(it.subset, f) + 1);
  }

  /** The chosen feature is an unused one of least score, the first on ties, and the
      majority is a class of largest count, the last on ties. */
  lemma SplitChoice(p: Problem, it: Item, f: nat)
    requires ValidTags(p.tags) && ItemOk(p, it) && ChooseFeature(p, it) == Some(f)
    ensures f < Features(p) && f !in it.used
    ensures forall g | 0 <= g < Features(p) && g !in it.used :: Scores(p, it.subset)[f] <= Scores(p, it.subset)[g]
    ensures forall g | 0 <= g < f && g !in it.used :: Scores(p, it.subset)[f] < Scores(p, it.subset)[g]
    ensures LastMax(Distribution(it.subset, Classes(p))) < Classes(p)
    ensures forall c | 0 <= c < Classes(p) ::
      CountClass(it.subset, c) <= CountClass(it.subset, LastMax(Distribution(it.subset, Classes(p))))
    ensures forall c | LastMax(Distribution(it.subset, Classes(p))) < c < Classes(p) ::
      CountClass(it.subset, c) < CountClass(it.subset, LastMax(Distribution(it.subset, Classes(p))))
  {
    var d := Distribution(it.subset, Classes(p));
    var m := LastMax(d);
    forall c | 0 <= c < Classes(p) ensures CountClass(it.subset, c) <= CountClass(it.subset, m) {
      assert d[c] <= d[m];
    }
  }

  /** The items pushed for a split on `f` at entry `n`: one per value whose group is
      non-empty, in increasing value order, each holding that group. */
  lemma SplitGroups(it: Item, f: nat, n: nat)
    ensures var kids := Children(it, f, n, MaxValue(it.subset, f) + 1);
      (forall q | 0 <= q < |kids| ::
        kids[q].link.Some? && kids[q].link.value.parent == n && kids[q].subset != [] &&
        kids[q] == ChildItem(it, f, n, kids[q].link.value.value)) &&
      (forall v: nat :: Filter(it.subset, f, v) != [] <==> Link(n, v) in LinksOf(kids)) &&
      Increasing(kids)
  {
    var b := MaxValue(it.subset, f) + 1;
    var kids := Children(it, f, n, b);
    ChildrenCover(it, f, n, b);
    ChildrenIncreasing(it, f, n, b);
    forall v: nat ensures Filter(it.subset, f, v) != [] <==> Link(n, v) in LinksOf(kids) {
      if Filter(it.subset, f, v) != [] && v >= b {
        FilterAboveMax(it.subset, f, v);
      }
      if Link(n, v) in LinksOf(kids) {
        var q :| 0 <= q < |kids| && kids[q].link.Some? && kids[q].link.value == Link(n, v);
        assert ChildOf(kids[q], it, f, n, b);
      }
    }
  }

  /** A mixed item with every feature used is dropped. */
  lemma UndecidedStep(p: Problem, b: Builder, rest: seq<Item>, it: Item)
    requires Inv(p, b) && b.stack == rest + [it] && ItemOk(p, it)
    requires Support(Distribution(it.subset, Classes(p))) != 1 && |it.used| >= Features(p)
    ensures Inv(p, Builder(b.nodes, b.origin, rest))
    ensures Measure(p, rest) < Measure(p, b.stack)
  {
    UndecidedKeepsInv(p, b, rest, it);
    MeasurePop(p, rest, it);
  }

  /** A mixed item with an unused feature becomes a branch on the chosen feature, and its
      non-empty groups are pushed. */
  lemma BranchStep(p: Problem, nodes: seq<Node>, origin: seq<Item>, stack: seq<Item>, rest: seq<Item>,
                    it: Item, f: nat, node: Node, kids: seq<Item>)
    requires Inv(p, Builder(nodes, origin, stack)) && stack == rest + [it] && ItemOk(p, it)
    requires it.link.Some? ==> it.link.value.parent < |nodes|
    requires Support(Distribution(it.subset, Classes(p))) != 1 && |it.used| < Features(p)
    requires ChooseFeature(p, it) == Some(f)
    requires node == Branch(map[], f, LastMax(Distribution(it.subset, Classes(p))))
    requires kids == Children(it, node.feature, |nodes|, MaxValue(it.subset, node.feature) + 1)
    ensures Inv(p, Builder(Linked(nodes, it) + [node], origin + [it], rest + kids))
    ensures Measure(p, rest + kids) < Measure(p, stack)
  {
    BranchBuilt(p, it, f, node, kids, |nodes|);
    DecidedKeepsInv(p, Builder(nodes, origin, stack), rest, it, node, kids);
  }

  lemma BranchBuilt(p: Problem, it: Item, f: nat, node: Node, kids: seq<Item>, n: nat)
    requires ValidTags(p.tags) && ItemOk(p, it)
    requires Support(Distribution(it.subset, Classes(p))) != 1 && |it.used| < Features(p)
    requires ChooseFeature(p, it) == Some(f)
    requires node == Branch(map[], f, LastMax(Distribution(it.subset, Classes(p))))
    requires kids == Children(it, node.feature, n, MaxValue(it.subset, node.feature) + 1)
    ensures Decided(p, it) && Built(p, it, node, kids, n)
  {
    assert NodeFor(p, it, node);
  }

  /** With nothing pending, completeness and the path invariant give both directions. */
  lemma FinishedIsTrained(p: Problem, nodes: seq<Node>, origin: seq<Item>)
    requires Inv(p, Builder(nodes, origin, [])) && nodes != []
    ensures Decided(p, RootItem(p)) && Trained(p, nodes, origin)
  {
    assert LinksOf([]) == {};
    assert NodeFor(p, origin[0], nodes[0]);
    NodeForDecided(p, origin[0], nodes[0]);
    forall j, v | 0 <= j < |nodes| && nodes[j].Branch?
      ensures v in nodes[j].paths <==>
        Filter(origin[j].subset, nodes[j].feature, v) != [] &&
        Decided(p, ChildItem(origin[j], nodes[j].feature, j, v))
    {
      FinishedPath(p, nodes, origin, j, v);
    }
  }

  /** With nothing pending, a branch has a path for a value exactly when that value's
      group is non-empty and decided. */
  lemma FinishedPath(p: Problem, nodes: seq<Node>, origin: seq<Item>, j: nat, v: nat)
    requires Inv(p, Builder(nodes, origin, [])) && j < |nodes| && nodes[j].Branch?
    ensures v in nodes[j].paths <==>
      Filter(origin[j].subset, nodes[j].feature, v) != [] &&
      Decided(p, ChildItem(origin[j], nodes[j].feature, j, v))
  {
    assert LinksOf([]) == {};
    assert Complete(p, nodes, origin, {}, j);
    if v in nodes[j].paths {
      assert PathsFit(nodes, origin, j);
      var k := nodes[j].paths[v];
      NodeForDecided(p, origin[k], nodes[k]);
    }
  }

  /** Every branch of a trained arena splits on a non-class attribute. */
  lemma TrainedFeaturesBelow(p: Problem, nodes: seq<Node>, origin: seq<Item>)
    requires Trained(p, nodes, origin)
    ensures FeaturesBelow(nodes, Features(p))
  {
    forall j | 0 <= j < |nodes| && nodes[j].Branch? ensures nodes[j].feature < Features(p) {
      assert NodeFor(p, origin[j], nodes[j]);
    }
  }

  /** `predict` never indexes out of range on a trained arena, for any record with a
      column per non-class attribute. */
  lemma TrainedWalkable(p: Problem, nodes: seq<Node>, origin: seq<Item>, r: Record)
    requires Trained(p, nodes, origin) && |r.features| >= Features(p)
    ensures Walkable(nodes, 0, r)
  {
    TrainedFeaturesBelow(p, nodes, origin);
    FeaturesBelowWalkable(nodes, Features(p), 0, r);
  }

  /** A leaf holds records of one class and answers it; a branch holds several classes,
      splits on a feature not used above it and answers the last most frequent class. */
  lemma TrainedNodes(p: Problem, nodes: seq<Node>, origin: seq<Item>, j: nat)
    requires Trained(p, nodes, origin) && j < |nodes|
    ensures nodes[j].Leaf? ==> Pure(origin[j].subset) && nodes[j].target == origin[j].subset[0].target
    ensures nodes[j].Branch? ==>
      !Pure(origin[j].subset) &&
      nodes[j].feature < Features(p) && nodes[j].feature !in origin[j].used &&
      nodes[j].majority < Classes(p) &&
      (forall c | 0 <= c < Classes(p) ::
        CountClass(origin[j].subset, c) <= CountClass(origin[j].subset, nodes[j].majority)) &&
      (forall c | nodes[j].majority < c < Classes(p) ::
        CountClass(origin[j].subset, c) < CountClass(origin[j].subset, nodes[j].majority))
  {
    assert ItemOk(p, origin[j]) && NodeFor(p, origin[j], nodes[j]);
    PureIffOneClass(origin[j].subset, Classes(p));
  }

  lemma FeatureUnused(p: Problem, nodes: seq<Node>, origin: seq<Item>, k: nat)
    requires ArenaInv(p, nodes, origin) && k < |nodes| && nodes[k].Branch?
    ensures nodes[k].feature !in origin[k].used
  {
    assert ItemOk(p, origin[k]) && NodeFor(p, origin[k], nodes[k]);
  }

  /** Going down a path adds the branch's feature to the used set. */
  lemma {:induction false} UsedGrows(p: Problem, nodes: seq<Node>, origin: seq<Item>, j: nat, k: nat)
    requires Trained(p, nodes, origin) && Reaches(nodes, j, k)
    ensures k < |nodes| && origin[j].used <= origin[k].used
    ensures j != k ==> nodes[j].Branch? && nodes[j].feature in origin[k].used
    decreases |nodes| - j
  {
    if j != k {
      var v :| v in nodes[j].paths && Reaches(nodes, nodes[j].paths[v], k);
      var m := nodes[j].paths[v];
      assert PathsFit(nodes, origin, j);
      assert origin[m].used == origin[j].used + {nodes[j].feature};
      UsedGrows(p, nodes, origin, m, k);
    }
  }

  /** No feature is split on twice along a path of a trained tree. */
  lemma NoFeatureRepeats(p: Problem, nodes: seq<Node>, origin: seq<Item>, j: nat, k: nat)
    requires Trained(p, nodes, origin) && Reaches(nodes, j, k) && j != k
    requires k < |nodes| && nodes[k].Branch?
    ensures nodes[j].Branch? && nodes[k].feature != nodes[j].feature
  {
    UsedGrows(p, nodes, origin, j, k);
    FeatureUnused(p, nodes, origin, k);
  }

  /** The walk of a record from an entry whose records include it only visits entries
      whose records include it. */
  lemma {:induction false} WalkKeepsRecord(p: Problem, nodes: seq<Node>, origin: seq<Item>, i: nat, r: Record, j: nat)
    requires Trained(p, nodes, origin) && i < |nodes| && r in origin[i].subset && OnWalk(nodes, i, r, j)
    ensures j < |nodes| && r in origin[j].subset
    decreases |nodes| - i
  {
    if j != i {
      var f := nodes[i].feature;
      var v := r.features[f];
      var m := nodes[i].paths[v];
      assert PathsFit(nodes, origin, i);
      FilterKeeps(origin[i].subset, f, v);
      WalkKeepsRecord(p, nodes, origin, m, r, j);
    }
  }

  /** A training record whose walk ends at a leaf is classified correctly. */
  lemma LeafFitsTraining(p: Problem, nodes: seq<Node>, origin: seq<Item>, r: Record)
    requires Trained(p, nodes, origin) && r in p.data
    ensures Walkable(nodes, 0, r)
    ensures nodes[Stop(nodes, 0, r)].Leaf? ==> Decide(nodes, 0, r) == r.target
  {
    TrainedWalkable(p, nodes, origin, r);
    var j := Stop(nodes, 0, r);
    WalkKeepsRecord(p, nodes, origin, 0, r, j);
    if nodes[j].Leaf? {
      TrainedNodes(p, nodes, origin, j);
    }
  }
}

=== FILE: tree.dfy ===
/** The arena of a decision tree and its traversal (src/decision.rs: `Node`, `BranchNode`,
    `LeafNode`, `DecisionTree`, `predict`, `test_set`). */
module Tree {
  import opened Outcomes
  import opened Records

  /** One arena entry. A branch maps an observed value of its `feature` to the arena index
      of the child built for it, and answers `majority` for values it has no path for; a
      pruned branch keeps its entry with an empty `paths`. */
  datatype Node =
    | Branch(paths: map<nat, nat>, feature: nat, majority: nat)
    | Leaf(target: nat)

  /** Every path of every branch leads to a LATER entry of the arena. The builder appends
      a child after its parent, and this is what makes every walk terminate. */
  predicate Ordered(nodes: seq<Node>) {
    forall j, v | 0 <= j < |nodes| && nodes[j].Branch? && v in nodes[j].paths ::
      j < nodes[j].paths[v] < |nodes|
  }

  /** The walk of `predict` for `r` from entry `i` never indexes out of range: each
      visited entry exists and each visited branch's feature is a column of `r`. */
  predicate Walkable(nodes: seq<Node>, i: nat, r: Record)
    requires Ordered(nodes)
    decreases |nodes| - i
  {
    i < |nodes| &&
    match nodes[i]
    case Leaf(_) => true
    case Branch(paths, f, _) =>
      f < |r.features| && (r.features[f] in paths ==> Walkable(nodes, paths[r.features[f]], r))
  }

  /** Entry `j` is visited by the walk for `r` that starts at entry `i`. */
  ghost predicate OnWalk(nodes: seq<Node>, i: nat, r: Record, j: nat)
    requires Ordered(nodes)
    decreases |nodes| - i
  {
    i < |nodes| &&
    (j == i ||
     (nodes[i].Branch? && nodes[i].feature < |r.features| &&
      r.features[nodes[i].feature] in nodes[i].paths &&
      OnWalk(nodes, nodes[i].paths[r.features[nodes[i].feature]], r, j)))
  }

  /** What the walk answers when it stops at `n`: a leaf's class, or the majority class of
      a branch that has no path for the record's value (`None` when the walk goes on). */
  function Verdict(n: Node, r: Record): Option<nat> {
    match n
    case Leaf(c) => Some(c)
    case Branch(paths, f, m) =>
      if f < |r.features| && r.features[f] in paths then None else Some(m)
  }

  /** The class `predict` returns for `r` when it starts at entry `i`. */
  function Decide(nodes: seq<Node>, i: nat, r: Record): (c: nat)
    requires Ordered(nodes) && Walkable(nodes, i, r)
    ensures exists j | i <= j < |nodes| :: OnWalk(nodes, i, r, j) && Verdict(nodes[j], r) == Some(c)
    decreases |nodes| - i
  {
    match nodes[i]
    case Leaf(c) => c
    case Branch(paths, f, m) =>
      var v := r.features[f];
      if v in paths then
        var c := Decide(nodes, paths[v], r);
        ghost var j :| paths[v] <= j < |nodes| && OnWalk(nodes, paths[v], r, j) && Verdict(nodes[j], r) == Some(c);
        assert OnWalk(nodes, i, r, j);
        c
      else
        assert Verdict(nodes[i], r) == Some(m);
        m
  }

  /** The entry at which the walk for `r` from entry `i` stops. */
  function Stop(nodes: seq<Node>, i: nat, r: Record): (j: nat)
    requires Ordered(nodes) && Walkable(nodes, i, r)
    ensures i <= j < |nodes| && OnWalk(nodes, i, r, j)
    ensures Verdict(nodes[j], r) == Some(Decide(nodes, i, r))
    decreases |nodes| - i
  {
    match nodes[i]
    case Leaf(_) => i
    case Branch(paths, f, _) =>
      if r.features[f] in paths then Stop(nodes, paths[r.features[f]], r) else i
  }

  /** `predict`: start at entry 0 and follow the record's values until a leaf, or a branch
      without a path for the value (a pruned branch has none), is reached. */
  method Predict(nodes: seq<Node>, r: Record) returns (c: nat)
    requires Ordered(nodes) && Walkable(nodes, 0, r)
    ensures c == Decide(nodes, 0, r)
  {
    var i := 0;
    while true
      invariant Walkable(nodes, i, r)
      invariant Decide(nodes, i, r) == Decide(nodes, 0, r)
      decreases |nodes| - i
    {
      match nodes[i]
      case Leaf(t) =>
        return t;
      case Branch(paths, f, m) =>
        if r.features[f] in paths {
          i := paths[r.features[f]];
        } else {
          return m;
        }
    }
  }

  /** Entry `k` lies in the subtree of entry `j`: following paths from `j` leads to it. */
  ghost predicate Reaches(nodes: seq<Node>, j: nat, k: nat)
    requires Ordered(nodes)
    decreases |nodes| - j
  {
    j < |nodes| &&
    (j == k ||
     (nodes[j].Branch? && exists v | v in nodes[j].paths :: Reaches(nodes, nodes[j].paths[v], k)))
  }

  /** Every branch splits on a feature below `k`. */
  predicate FeaturesBelow(nodes: seq<Node>, k: nat) {
    forall j | 0 <= j < |nodes| && nodes[j].Branch? :: nodes[j].feature < k
  }

  /** A record with at least `k` feature columns can be walked from every entry of an
      ordered arena that splits only on features below `k`. */
  lemma {:induction false} FeaturesBelowWalkable(nodes: seq<Node>, k: nat, i: nat, r: Record)
    requires Ordered(nodes) && FeaturesBelow(nodes, k) && |r.features| >= k && i < |nodes|
    ensures Walkable(nodes, i, r)
    decreases |nodes| - i
  {
    if nodes[i].Branch? && r.features[nodes[i].feature] in nodes[i].paths {
      FeaturesBelowWalkable(nodes, k, nodes[i].paths[r.features[nodes[i].feature]], r);
    }
  }

  /** Every record of `vs` can be walked from the root. */
  predicate AllWalkable(nodes: seq<Node>, vs: seq<Record>)
    requires Ordered(nodes)
  {
    forall i | 0 <= i < |vs| :: Walkable(nodes, 0, vs[i])
  }

  /** The numerator of `test_set`: how many records `predict` classifies correctly. */
  function TestSet(nodes: seq<Node>, vs: seq<Record>): (n: nat)
    requires Ordered(nodes) && AllWalkable(nodes, vs)
    ensures n <= |vs|
  {
    if vs == [] then 0
    else
      var last := vs[|vs| - 1];
      TestSet(nodes, vs[..|vs| - 1]) + (if Decide(nodes, 0, last) == last.target then 1 else 0)
  }

  /** Positions of `vs` whose record `predict` classifies correctly. */
  ghost function Hits(nodes: seq<Node>, vs: seq<Record>): set<nat>
    requires Ordered(nodes) && AllWalkable(nodes, vs)
  {
    set i | 0 <= i < |vs| && Decide(nodes, 0, vs[i]) == vs[i].target
  }

  /** The count of `test_set` is the number of correctly classified positions. */
  lemma {:induction false} TestSetCountsHits(nodes: seq<Node>, vs: seq<Record>)
    requires Ordered(nodes) && AllWalkable(nodes, vs)
    ensures TestSet(nodes, vs) == |Hits(nodes, vs)|
  {
    if vs != [] {
      var p := vs[..|vs| - 1];
      var last := |vs| - 1;
      TestSetCountsHits(nodes, p);
      if Decide(nodes, 0, vs[last]) == vs[last].target {
        assert Hits(nodes, vs) == Hits(nodes, p) + {last};
      } else {
        assert Hits(nodes, vs) == Hits(nodes, p);
      }
    }
  }

  /** `b` is `a` with the paths of some branches emptied and nothing else changed: what
      pruning does to an arena. */
  predicate ClearedFrom(a: seq<Node>, b: seq<Node>) {
    |a| == |b| &&
    forall i | 0 <= i < |a| :: b[i] == a[i] || (a[i].Branch? && b[i] == a[i].(paths := map[]))
  }

  /** The arena with the paths of entry `j` emptied (a no-op on a leaf). */
  function Clear(nodes: seq<Node>, j: nat): (cleared: seq<Node>)
    requires j < |nodes|
    ensures ClearedFrom(nodes, cleared)
    ensures cleared[j].Branch? ==> cleared[j].paths == map[]
  {
    if nodes[j].Branch? then nodes[j := nodes[j].(paths := map[])] else nodes
  }

  lemma ClearedKeepsFeaturesBelow(a: seq<Node>, b: seq<Node>, k: nat)
    requires FeaturesBelow(a, k) && ClearedFrom(a, b)
    ensures FeaturesBelow(b, k)
  {
  }

  lemma ClearedFromTransitive(a: seq<Node>, b: seq<Node>, c: seq<Node>)
    requires ClearedFrom(a, b) && ClearedFrom(b, c)
    ensures ClearedFrom(a, c)
  {
  }

  /** Emptying paths never breaks the ordering of the arena. */
  lemma ClearedKeepsOrder(a: seq<Node>, b: seq<Node>)
    requires Ordered(a) && ClearedFrom(a, b)
    ensures Ordered(b)
  {
  }

  /** Emptying paths only shortens walks, so a walkable record stays walkable. */
  lemma {:induction false} ClearedKeepsWalkable(a: seq<Node>, b: seq<Node>, i: nat, r: Record)
    requires Ordered(a) && ClearedFrom(a, b) && Walkable(a, i, r)
    ensures Ordered(b) && Walkable(b, i, r)
    decreases |a| - i
  {
    ClearedKeepsOrder(a, b);
    if b[i].Branch? && b[i] == a[i] {
      var v := r.features[a[i].feature];
      if v in a[i].paths {
        ClearedKeepsWalkable(a, b, a[i].paths[v], r);
      }
    }
  }

  lemma ClearedKeepsAllWalkable(a: seq<Node>, b: seq<Node>, vs: seq<Record>)
    requires Ordered(a) && ClearedFrom(a, b) && AllWalkable(a, vs)
    ensures Ordered(b) && AllWalkable(b, vs)
  {
    ClearedKeepsOrder(a, b);
    forall i | 0 <= i < |vs| ensures Walkable(b, 0, vs[i]) {
      ClearedKeepsWalkable(a, b, 0, vs[i]);
    }
  }
}
